=== FILE: README.md ===
# BigQuery/knowledge-base API server: guards, settings and thinking store in Dafny

This project models the security-relevant core of a FastAPI server that fronts
BigQuery, a vector store and a "sequential thinking" helper. It covers four pieces:

- **The read-only SQL guard** (`is_read_only_query`). It rejects blank queries,
  queries made of only whitespace and comments, queries that start with a DML
  or DDL verb, and any query whose upper-cased text contains such a verb.
- **The dataset allow-list guard** (`validate_dataset_references`). It deletes
  every `` `d`. `` and `d.` prefix for each allowed dataset `d`. It then
  rejects the first dotted name whose leading segment is not allowed.
- **The validation gate of `execute_query`**. It runs both guards in order and
  turns their failures into HTTP 403 responses.
- **The `ALLOWED_DATASETS` setting and the in-memory sequential-thinking
  store.** The setting turns the raw environment value into "unrestricted" or
  a set of names. The store keeps an append-only history, a dictionary from
  branch id to thought ids in key-insertion order, and a box-drawing formatter.

The third-party SQL tokenizer is replaced by a small lexer (`SqlLexer`) over
`string`. Python's string built-ins the code relies on are in `StrOps`.

Module layout:
- `str_ops.dfy` (`StrOps`): `isspace`, `strip`, `split`, `upper`, `replace(p, "")`, `in`, `str(int)`.
- `sql_lexer.dfy` (`SqlLexer`): tokens and the lexer.
- `query_validator.dfy` (`QueryValidator`): both guards.
- `settings.dfy` (`Settings`): the allow-list setting.
- `query_router.dfy` (`QueryRouter`): the gate.
- `sequential_thinking.dfy` (`SequentialThinking`): the store, a class `ThoughtStore`.

Python iterates over two sets whose order is unspecified: the forbidden verbs
and the allowed datasets. Every function over them takes an `order` argument,
which is any enumeration of the set (`IsEnumeration`). The contracts state
only facts that hold for every order.

Where the code and its tests disagree, the model follows the code:
- The substring scan at `app/utils/query_validator.py:44-48` rejects a verb
  that appears only inside a string literal or comment. See
  `LiteralMentionRejected`. The tests at
  `tests/utils/test_query_validator.py:123-133` and `:359-376` expect such
  queries to pass.
- The model's dataset guard checks the first segment of the rewritten name
  (line 77). For `` `project.allowed.table` `` that is the project segment
  (see `ProjectSegmentChecked`), and for a column reference `a.field1` it is
  the alias `a`. The token selection of line 75 is approximated (see the
  `QueryValidator.IsDottedName` line under "Left out"). Under that
  approximation:
  - The tests at `:144-150`, `:152-163` and `:197-203` expect acceptance,
    and the model rejects.
  - The model rejects the tests at `:165-171`, `:173-187` and `:205-215`,
    but its reason names `project` (or `a`), not the unauthorized dataset
    the tests look for.
  - The test at `:189-195` agrees with the model: after the rewrite no
    back-tick name holds a dot, and the lone dot between two back-tick
    names is not selected (see `BackTickSegmentsAccepted`).
  The code as written may never select a token at line 75, and then it
  accepts all six of these queries (see "Left out").

## Model

| member | source | states |
|---|---|---|
| StrOps.Upper | app/utils/query_validator.py:44 | upper-casing keeps the length and maps each character on its own |
| StrOps.DeleteAll | app/utils/query_validator.py:69 | deleting every occurrence never lengthens the text and leaves a text without the pattern unchanged |
| StrOps.StripWhere | app/utils/query_validator.py:76 | the stripped text is empty exactly when every character is strippable, and otherwise starts and ends with a kept character |
| StrOps.StripTrimsEnds | app/utils/query_validator.py:76 | what `strip` leaves sits at some index of the original, with only strippable characters before it and after it; with StripWhere's contract this fixes the result to the input minus its leading and trailing strippable runs |
| StrOps.StripKeeps | app/utils/query_validator.py:76 | stripping back-ticks never removes a character that is not a back-tick, so a dot survives |
| StrOps.StripFrom | app/config/settings.py:16 | stripping never introduces a character |
| StrOps.Strip | app/config/settings.py:16 | the result has no surrounding whitespace, and is empty exactly when the input is blank (which runs are removed is StripTrimsEnds with the whitespace class) |
| StrOps.Split | app/utils/query_validator.py:76 | there is always at least one piece; no piece holds the separator; joining the pieces gives the input back; there is one piece exactly when the separator is absent |
| StrOps.JoinContains | app/config/settings.py:16 | every character of a piece occurs in the joined text |
| StrOps.SplitAround | app/config/settings.py:16 | splitting `x + sep + y` gives the pieces of `x` followed by the pieces of `y` |
| StrOps.IndexOfFirst | app/config/settings.py:16 | the first occurrence is the one with no earlier occurrence |
| StrOps.NatToString | app/routers/sequential_thinking.py:35 | `str(n)` for `n >= 0` is all digits, denotes `n`, and has no leading zero |
| StrOps.IntToString | app/routers/sequential_thinking.py:35 | `str(n)` starts with a minus sign exactly when `n` is negative; it is the decimal digits of `n`, or a minus sign followed by those of `-n` |
| SqlLexer.Lex | app/utils/query_validator.py:14 | the tokens spell the input exactly; each is non-empty and well formed for its kind (no closing quote, newline or comment close inside); every token but the last is closed: a line comment ends with its newline, a block comment with its close, a literal or back-tick name with its quote; a word or whitespace run is never followed by a token that could extend it; a `-` or `/` punctuation token is never followed by a `-` or `*` respectively, so two dashes and a slash-star always open a comment |
| SqlLexer.FirstTokenWellFormed | app/utils/query_validator.py:14 | the token cut at the start of the text is well formed |
| SqlLexer.FirstSignificant | app/utils/query_validator.py:20 | `token_first(skip_ws, skip_cm)`: none exactly when every token is whitespace or a comment, otherwise the first token that is neither |
| SqlLexer.BlankIffOnlyWhitespace | app/utils/query_validator.py:14-16 | a text is blank exactly when it lexes to whitespace tokens only |
| QueryValidator.FirstContained | app/utils/query_validator.py:45-48 | the search loop finds a verb from the enumeration that occurs in the text, and finds none exactly when no verb occurs |
| QueryValidator.IsReadOnlyQuery | app/utils/query_validator.py:4-50 | the reason is empty exactly when the query is accepted; acceptance holds exactly when the query is not blank, has a significant token, does not lead with a forbidden verb, and mentions none; each failure carries its exact message, with the leading verb as written |
| QueryValidator.NoTokensMeansOnlyComments | app/utils/query_validator.py:14-23 | "No valid SQL tokens found" is reported exactly when the query lexes to whitespace and comments with at least one comment |
| QueryValidator.LiteralMentionRejected | app/utils/query_validator.py:44-48 | `SELECT 'INSERT'` is rejected, because the scan is textual |
| QueryValidator.RemoveAllowedPrefix | app/utils/query_validator.py:69 | one dataset's rewrite never lengthens the query, and leaves it unchanged when neither prefix occurs |
| QueryValidator.RemoveAllowedPrefixes | app/utils/query_validator.py:68-69 | the whole rewrite, over any enumeration of the allow-list, never lengthens the query |
| QueryValidator.RemoveAllowedPrefixesNoMatch | app/utils/query_validator.py:68-69 | the rewrite returns the query unchanged when no allowed prefix occurs in it |
| QueryValidator.IsDottedName | app/utils/query_validator.py:75 | a selected token is a bare or back-tick name holding a dot and some other character: never whitespace, a comment, a string literal, punctuation, a numeric constant or a lone dot |
| QueryValidator.CheckedSegment | app/utils/query_validator.py:76-77 | `parts[0]` holds no dot and, for a dotted name, is followed by the first dot of the back-tick-stripped text |
| QueryValidator.Unauthorized | app/utils/query_validator.py:75-78 | a token rejects exactly when it is a dotted name whose leading segment, ended by its first dot, is not an allowed dataset |
| QueryValidator.Parts | app/utils/query_validator.py:76 | a name holding a dot splits into at least two segments |
| QueryValidator.FirstUnauthorizedIndex | app/utils/query_validator.py:73-78 | the index found is the first offending token at or after the start, or the end when there is none |
| QueryValidator.ScanVerdict | app/utils/query_validator.py:72-80 | the scan accepts exactly when no dotted name has a leading segment outside the allow-list; a rejection names the leading segment of the first such token, and all earlier tokens are clean |
| QueryValidator.DatasetVerdict | app/utils/query_validator.py:53-80 | an empty allow-list accepts every query; otherwise the verdict is the scan of the lexed, rewritten query |
| QueryValidator.StripAllowedPrefixes | app/utils/query_validator.py:68-69 | the rewrite loop computes the rewrite over the enumeration |
| QueryValidator.ScanTokens | app/utils/query_validator.py:73-80 | the token loop returns the scan's verdict |
| QueryValidator.ValidateDatasetReferences | app/utils/query_validator.py:53-80 | the method returns the guard's verdict |
| QueryValidator.ProjectSegmentChecked | app/utils/query_validator.py:69-78 | with allow-list `{d}`, `` `p.d.t` `` is rewritten to `` `p.t` `` and rejected for `p` |
| QueryValidator.BackTickSegmentsAccepted | app/utils/query_validator.py:68-78 | with allow-list `{d}`, `` `p`.`d`.`t` `` is rewritten to `` `p`.`t` ``; the dot between the two back-tick names is not a dataset reference, so the guard accepts |
| QueryValidator.DecimalConstantAccepted | app/utils/query_validator.py:72-78 | with allow-list `{d}`, the decimal constant `1.5` is not taken for a dataset reference and the guard accepts |
| QueryValidator.LiteralDotAccepted | app/utils/query_validator.py:72-78 | with allow-list `{d}`, the string literal `'a.b'` lexes as one literal token and the guard accepts |
| Settings.ParseAllowedDatasets | app/config/settings.py:12-17 | the setting is unrestricted exactly when the raw value is empty or exactly `*` |
| Settings.Names | app/config/settings.py:16 | every non-blank piece contributes its stripped text, and every name is non-empty with no surrounding whitespace |
| Settings.ParsedNamesClean | app/config/settings.py:16 | every non-blank piece contributes its stripped text; every name is non-empty, has no surrounding whitespace, holds no comma, and comes from a piece |
| Settings.SeparatorsOnlyAllowNothing | app/config/settings.py:14-16 | a non-empty value of commas and whitespace only gives the empty set, not "unrestricted" |
| Settings.PieceOrderIrrelevant | app/config/settings.py:16 | swapping two comma-separated halves gives the same result |
| Settings.RepeatedPiecesIrrelevant | app/config/settings.py:16 | repeating a value after a comma gives the same result |
| Settings.NamesConcat | app/config/settings.py:16 | the names of concatenated piece lists are the union of the names of each |
| Settings.PaddedStarIsAName | app/config/settings.py:15-16 | `" * "` is not the wildcard and restricts to the single name `*` |
| QueryRouter.Restricts | app/routers/query.py:27 | the dataset check runs exactly when the allow-list is set and has a member; an unset or empty one never restricts |
| QueryRouter.ValidationGate | app/routers/query.py:21-30 | a query that is not read-only is refused with 403 and the read-only reason; otherwise it proceeds exactly when no allow-list is set or the dataset guard accepts, and a refusal carries the dataset reason and happens only under a non-empty allow-list |
| QueryRouter.ExecuteQuery | app/routers/query.py:20-77 | a gate refusal is returned unchanged and never turned into a 500; rows are returned only after the gate lets the query through, and exactly the warehouse's rows are returned when the gate passes and the warehouse answers; a warehouse failure becomes a 500 with the fixed prefix |
| QueryRouter.RefusalNeverReachesWarehouse | app/routers/query.py:22-41 | a refused query gets the same 403 whatever the warehouse would have done |
| QueryRouter.UnsetAndEmptyAgree | app/routers/query.py:27 | an unset allow-list and an empty one give the same gate decisions |
| QueryRouter.SeparatorsOnlySettingUnrestricted | app/routers/query.py:27 | a setting of commas and blanks parses to the empty set, and the gate then treats it as unset |
| SequentialThinking.InputError | app/routers/sequential_thinking.py:74-80 | a revision without a target and then a branch point without a branch id give 400 with their exact messages; no error exactly when neither holds; an empty branch id is accepted |
| SequentialThinking.AdjustedTotal | app/routers/sequential_thinking.py:83-85 | the stored estimate is the larger of the thought number and the estimate |
| SequentialThinking.MakeRecord | app/routers/sequential_thinking.py:92-104 | the record carries the given id and time, the adjusted estimate, and every other input field unchanged (thought, number, next-needed, revision flag and target, branch point and id, needs-more) |
| SequentialThinking.BranchKeys | app/routers/sequential_thinking.py:110-112 | the keys are distinct and are exactly the non-empty branch ids used in the history |
| SequentialThinking.BranchThoughts | app/routers/sequential_thinking.py:110-113 | a branch holds at most as many ids as there are records, and a non-empty branch has a record filed under it |
| SequentialThinking.BranchThoughtsAppend | app/routers/sequential_thinking.py:113 | a new record adds its id at the end of its own branch and nowhere else |
| SequentialThinking.BranchKeysAppend | app/routers/sequential_thinking.py:111-112 | a new record adds its branch as the last key only when the branch is new, so existing keys never move |
| SequentialThinking.UnusedBranchEmpty | app/routers/sequential_thinking.py:111-112 | a branch that is not a key has no ids |
| SequentialThinking.FileUnder | app/routers/sequential_thinking.py:111-113 | filing an id adds the branch to the keys, appends the id to its list, and leaves every other list alone |
| SequentialThinking.AppendKeepsConsistent | app/routers/sequential_thinking.py:107-113 | appending a record and filing its id keeps the dictionary and key order equal to what the longer history determines |
| SequentialThinking.Counts | app/routers/sequential_thinking.py:180 | one count per key, in key order, each the number of ids filed under that key |
| SequentialThinking.HitsAtMostOne | app/routers/sequential_thinking.py:180 | a record is filed under at most one of a list of distinct keys |
| SequentialThinking.SumCountsAppend | app/routers/sequential_thinking.py:180 | a new record raises the total of the counts by the number of keys it is filed under |
| SequentialThinking.CountsBounded | app/routers/sequential_thinking.py:177-181 | over distinct keys, the counts add up to at most the number of records |
| SequentialThinking.ZeroCounts | app/routers/sequential_thinking.py:180 | with no records every count is zero |
| SequentialThinking.DistinctCardinality | app/routers/sequential_thinking.py:179 | a list of distinct keys has as many elements as its set |
| SequentialThinking.Prefix | app/routers/sequential_thinking.py:25-33 | a revision wins over a branch point, and a branch point over a plain thought; a branch point of 0 counts as none |
| SequentialThinking.Context | app/routers/sequential_thinking.py:27-33 | there is a context exactly when the prefix is not the plain-thought one; it is parenthesised, and names the revised thought for a revision or the branch point and branch id for a branch, with `None` for a missing value |
| SequentialThinking.Header | app/routers/sequential_thinking.py:35 | the header starts with the prefix followed by a blank |
| SequentialThinking.LJust | app/routers/sequential_thinking.py:43 | `ljust` pads on the right with blanks up to the width and never cuts |
| SequentialThinking.Repeat | app/routers/sequential_thinking.py:39 | `c * n` has length `n` and is all `c` |
| SequentialThinking.BorderLen | app/routers/sequential_thinking.py:38 | the border length is four more than the longer of header and thought |
| SequentialThinking.BorderLine | app/routers/sequential_thinking.py:42 | a border line is a corner, horizontal rules, and a corner, `n + 2` wide |
| SequentialThinking.TextLine | app/routers/sequential_thinking.py:43 | a text line is an edge, a blank, the text, blank padding, and an edge, `inner + 4` wide |
| SequentialThinking.BoxLines | app/routers/sequential_thinking.py:41-46 | the box is five lines, all `BorderLen + 2` wide: top border, framed header, separator, framed thought, bottom border, with their corner characters |
| SequentialThinking.FormatThought | app/routers/sequential_thinking.py:20-46 | the output is a newline followed by the box lines, separated by newlines |
| SequentialThinking.ThoughtStore.constructor | app/routers/sequential_thinking.py:16-17 | the store starts empty and consistent |
| SequentialThinking.ThoughtStore.ProcessThought | app/routers/sequential_thinking.py:50-127 | a rejected input leaves history, dictionary and keys unchanged; an accepted one appends exactly one record; a non-empty branch id gets the id appended, with its key added last only when new, and other branches are unchanged; the response carries the adjusted estimate, the keys and the new length; consistency is kept |
| SequentialThinking.ThoughtStore.GetThoughtHistory | app/routers/sequential_thinking.py:140-146 | the history is returned in append order, and its branch keys are the store's keys |
| SequentialThinking.ThoughtStore.GetBranchThoughts | app/routers/sequential_thinking.py:154-167 | an unknown id gives 404 with its message; a known one gives the ids filed under it in append order, and some record names it |
| SequentialThinking.ThoughtStore.GetMetadata | app/routers/sequential_thinking.py:171-181 | the totals equal the number of records and of keys; there is one count per key in key order; the counts add up to at most the number of records |

## Left out

- StrOps.Upper: only ASCII letters are upper-cased. Python's full Unicode case mapping is not modelled, and this can change a verdict: Python maps `ı` to `I`, `ſ` to `S` and `ẗ` to `T̈`, so the code rejects `ınsert into t values (1)` by its substring scan while the model accepts it. Likewise `SqlLexer.IsWordChar` is ASCII-only, whereas `sqlparse` matches names with the Unicode-aware `\w`, so a name with non-ASCII letters is cut into several tokens here.
- StrOps.IsSpace: the tokenizer's whitespace and `str.strip` are both modelled as Python's `str.isspace` set.
- SqlLexer.Lex: this is a small stand-in for `sqlparse`, not its grammar:
  - Literals and quoted names have no escapes and no doubled quotes.
  - An unterminated literal or comment runs to the end of the text.
  - Statements are not split. A `;` is an ordinary token, so the first statement's first significant token is the text's first significant token.
  - `sqlparse.parse` returning no statement is modelled as a blank query.
- QueryValidator.IsDottedName: line 75's test on the token's `ttype` depends on `sqlparse`'s classification, which is not part of this model. The selection is approximated as "a bare word or back-tick name that contains a dot, other than a numeric constant or a run of dots". Comments, string literals, whitespace and punctuation are never selected, and neither is a word made only of dots, such as the `.` between two back-tick names, because `sqlparse` types a dot as punctuation. A numeric constant (a word that starts with a digit, or with a dot and a digit, such as `1.5`) is excluded because `sqlparse` types it as a number. A word that mixes a numeric start with other characters is treated the same way, which `sqlparse` may split differently. The code as written may never select a token here: `statement.flatten()` yields only leaf tokens, and `sqlparse` leaves only grouped tokens untyped (`ttype` None). If so, the code accepts every query at this point, including the six queries of `tests/utils/test_query_validator.py:144-215` that the model rejects, which fits the comment of the test at `:217-225` that the empty allow-list result is how the implementation behaves.
- QueryValidator.DatasetVerdict: an empty allow-list accepts every query through an explicit early return. The code has no such branch. Under the approximated selection it would reject any dotted name. The test at `tests/utils/test_query_validator.py:217-225` expects acceptance. The only caller skips the check for an empty allow-list (`app/routers/query.py:27`), so the router is unaffected (see `QueryRouter.UnsetAndEmptyAgree`).
- Python set iteration order: it is an `order` parameter, and only order-independent facts are proved.
- QueryRouter.ExecuteQuery: BigQuery job configuration, execution, dry runs and row conversion (`app/routers/query.py:32-73`) are reduced to a given `WarehouseOutcome`.
- SequentialThinking.ThoughtStore.ProcessThought:
  - `uuid.uuid4()` and `datetime.now()` are the `id` and `now` parameters.
  - The console `print` of the formatted thought is not modelled.
  - The 500 "Error processing thought" path (lines 129-132) is not modelled: nothing in the modelled body raises.
- Request and response schemas: only the `gt=0` constraints on `thought_number` and `total_thoughts` are kept, as the precondition `ValidInput`. Pydantic conversion of stored records is the identity here.
- The module-level stores are shared across concurrent requests, and the handlers are `async`. The model is single-threaded.
- Other routers, clients and settings (datasets, tables, the dry-run based checks of `app/routers/bigquery/query.py`, the vector store, web search, health, application wiring) are not part of this model. They are SDK glue around the pieces above.

=== FILE: query_router.dfy ===
/**
 * The validation gate of `execute_query` in `app/routers/query.py`: the
 * read-only check, then the dataset check when an allow-list with at least
 * one name is configured, each failure becoming an HTTP 403. The warehouse
 * call that follows is a parameter: its outcome is given, not computed.
 */
module QueryRouter {
  import opened StrOps
  import opened QueryValidator
  import Settings

  /** What the gate decides: go on to the warehouse, or stop with an HTTP error. */
  datatype Gate = Proceed | Reject(status: int, detail: string)

  /** What the warehouse call of query.py:32-73 ends in, as far as the router can see. */
  datatype WarehouseOutcome = Rows(result: string) | Raised(message: string)

  /** The response of `execute_query`. */
  datatype Response = Ok(result: string) | HttpError(status: int, detail: string)

  const Forbidden: int := 403
  const InternalError: int := 500

  /** query.py:27: the allow-list is set and, as a Python set is truthy, names at least one dataset. */
  function Restricts(allowed: Option<set<string>>): (b: bool)
    ensures b <==> allowed.Some? && exists d :: d in allowed.value
    ensures allowed == None || allowed == Some({}) ==> !b
  {
    allowed.Some? && allowed.value != {}
  }

  /**
   * query.py:21-30. A query that is not read-only is refused with the
   * read-only reason; one that is, is refused with the dataset reason when an
   * allow-list restricts and rejects it; every other query proceeds.
   */
  function ValidationGate(query: string, allowed: Option<set<string>>,
                          forbiddenOrder: seq<string>, allowedOrder: seq<string>): (g: Gate)
    requires IsEnumeration(forbiddenOrder, ForbiddenOperations)
    requires allowed.Some? ==> IsEnumeration(allowedOrder, allowed.value)
    ensures g.Reject? ==> g.status == Forbidden
    ensures !IsReadOnlyQuery(query, forbiddenOrder).ok ==>
      g == Reject(Forbidden, "Query validation failed: " + IsReadOnlyQuery(query, forbiddenOrder).reason)
    ensures g.Proceed? <==>
      && IsReadOnlyQuery(query, forbiddenOrder).ok
      && (allowed.Some? ==> DatasetVerdict(query, allowed.value, allowedOrder).ok)
    ensures IsReadOnlyQuery(query, forbiddenOrder).ok && g.Reject? ==>
      && Restricts(allowed)
      && g.detail == "Dataset validation failed: " + DatasetVerdict(query, allowed.value, allowedOrder).reason
  {
    var readOnly := IsReadOnlyQuery(query, forbiddenOrder);
    if !readOnly.ok then Reject(Forbidden, "Query validation failed: " + readOnly.reason)
    else if Restricts(allowed) then
      var datasets := DatasetVerdict(query, allowed.value, allowedOrder);
      if !datasets.ok then Reject(Forbidden, "Dataset validation failed: " + datasets.reason)
      else Proceed
    else Proceed
  }

  /**
   * `execute_query` after the gate has decided: the warehouse outcome is used
   * only once the gate lets the query through; a gate refusal is re-raised
   * unchanged (query.py:75-77) and any other failure becomes a 500.
   */
  function ExecuteQuery(gate: Gate, warehouse: WarehouseOutcome): (r: Response)
    ensures gate.Reject? ==> r == HttpError(gate.status, gate.detail)
    ensures r.Ok? ==> gate.Proceed? && warehouse == Rows(r.result)
    ensures gate.Proceed? && warehouse.Rows? ==> r == Ok(warehouse.result)
    ensures gate.Proceed? && warehouse.Raised? ==>
      r == HttpError(InternalError, "Error executing query: " + warehouse.message)
  {
    match gate
    case Reject(status, detail) => HttpError(status, detail)
    case Proceed =>
      match warehouse
      case Rows(result) => Ok(result)
      case Raised(message) => HttpError(InternalError, "Error executing query: " + message)
  }

  /** A query the gate refuses is answered with its 403, whatever the warehouse would have done. */
  lemma RefusalNeverReachesWarehouse(query: string, allowed: Option<set<string>>,
                                     forbiddenOrder: seq<string>, allowedOrder: seq<string>,
                                     w1: WarehouseOutcome, w2: WarehouseOutcome)
    requires IsEnumeration(forbiddenOrder, ForbiddenOperations)
    requires allowed.Some? ==> IsEnumeration(allowedOrder, allowed.value)
    requires ValidationGate(query, allowed, forbiddenOrder, allowedOrder).Reject?
    ensures ExecuteQuery(ValidationGate(query, allowed, forbiddenOrder, allowedOrder), w1)
         == ExecuteQuery(ValidationGate(query, allowed, forbiddenOrder, allowedOrder), w2)
    ensures ExecuteQuery(ValidationGate(query, allowed, forbiddenOrder, allowedOrder), w1).status == Forbidden
  {
  }

  /** An unset allow-list and one naming no dataset let the same queries through, with the same errors. */
  lemma UnsetAndEmptyAgree(query: string, forbiddenOrder: seq<string>, allowedOrder: seq<string>)
    requires IsEnumeration(forbiddenOrder, ForbiddenOperations)
    requires IsEnumeration(allowedOrder, {})
    ensures ValidationGate(query, None, forbiddenOrder, allowedOrder)
         == ValidationGate(query, Some({}), forbiddenOrder, allowedOrder)
         == ValidationGate(query, None, forbiddenOrder, [])
  {
  }

  /**
   * A setting of separators and blanks only parses to an empty set, which
   * this router treats like an unset one: only the read-only check applies.
   */
  lemma SeparatorsOnlySettingUnrestricted(raw: string, query: string, forbiddenOrder: seq<string>)
    requires raw != []
    requires forall i :: 0 <= i < |raw| ==> raw[i] == ',' || IsSpace(raw[i])
    requires IsEnumeration(forbiddenOrder, ForbiddenOperations)
    ensures var allowed := Settings.ParseAllowedDatasets(raw);
      && allowed == Some({})
      && ValidationGate(query, allowed, forbiddenOrder, []) == ValidationGate(query, None, forbiddenOrder, [])
  {
    Settings.SeparatorsOnlyAllowNothing(raw);
  }
}

=== FILE: query_validator.dfy ===
/**
 * The read-only SQL guard and the dataset allow-list guard of
 * `app/utils/query_validator.py`.
 *
 * Python iterates over two sets here (the forbidden verbs, the allowed
 * datasets) in an order it does not specify. Both guards therefore take that
 * order as a parameter `order`, any enumeration of the set, and their
 * contracts state only facts that hold whatever the order.
 *
 * Where this model and the repository's tests disagree it follows the code:
 *  - the secondary scan for forbidden verbs is a plain substring search over
 *    the upper-cased text, so a verb inside a string literal or a comment
 *    rejects the query (see `LiteralMentionRejected`), although the tests at
 *    tests/utils/test_query_validator.py:123-133 and :359-376 expect such
 *    queries to pass;
 *  - the model's dataset guard checks the FIRST dot-separated segment of what
 *    is left after the allowed `d.` prefixes are deleted, so for
 *    `project.allowed.table` it checks `project` (see `ProjectSegmentChecked`),
 *    and a column reference `a.field1` is checked for `a`. The token
 *    selection of line 75 is approximated (see `IsDottedName`). Under that
 *    approximation the model rejects where the tests at :144-150, :152-163
 *    and :197-203 expect acceptance; it rejects the tests at :165-171,
 *    :173-187 and :205-215 too, but its reason names `project` (or `a`)
 *    rather than the unauthorized dataset. The test at :189-195 agrees with
 *    the model: the rewrite leaves `` `project`.`table` ``, whose lone dot is
 *    not a dataset reference (see `BackTickSegmentsAccepted`). Line 75 as written may select no token at all, since
 *    `flatten()` yields only leaf tokens and the tokenizer leaves only
 *    grouped tokens untyped; the code would then accept all six of those
 *    queries, which fits the comment of the test at :217-225.
 */
module QueryValidator {
  import opened StrOps
  import opened SqlLexer

  /** `(is_valid, reason)`. */
  datatype Verdict = Verdict(ok: bool, reason: string)

  /** The DML/DDL verbs that make a query not read-only. */
  const ForbiddenOperations: set<string> :=
    {"INSERT", "UPDATE", "DELETE", "CREATE", "DROP", "ALTER",
     "TRUNCATE", "MERGE", "REPLACE", "GRANT", "REVOKE"}

  const NoStatementReason: string := "No valid SQL statement found"
  const NoTokensReason: string := "No valid SQL tokens found"

  function OperationNotAllowed(op: string): string {
    "Operation '" + op + "' is not allowed"
  }

  function UnauthorizedDataset(name: string): string {
    "Reference to unauthorized dataset: " + name
  }

  /** `order` lists every element of `s` exactly once: one iteration order of a Python set. */
  ghost predicate IsEnumeration(order: seq<string>, s: set<string>) {
    && (forall i, j :: 0 <= i < j < |order| ==> order[i] != order[j])
    && (forall x :: x in order <==> x in s)
  }

  // ---------------------------------------------------------------------------
  // Statement-type guard: is_read_only_query

  /** Some forbidden verb occurs somewhere in the upper-cased query. */
  predicate MentionsForbidden(query: string) {
    exists op :: op in ForbiddenOperations && IsSubstring(op, Upper(query))
  }

  /** The first token that is neither whitespace nor a comment. */
  function LeadingToken(query: string): Option<Token> {
    FirstSignificant(Lex(query))
  }

  /** The leading token, upper-cased, is a forbidden verb. */
  predicate LeadsWithForbidden(query: string) {
    LeadingToken(query).Some? && Upper(LeadingToken(query).value.text) in ForbiddenOperations
  }

  /** The loop at query_validator.py:45-48: the first verb in `order` contained in `text`. */
  function FirstContained(order: seq<string>, text: string): (r: Option<string>)
    ensures r.Some? ==> r.value in order && IsSubstring(r.value, text)
    ensures r.None? <==> forall op :: op in order ==> !IsSubstring(op, text)
  {
    if order == [] then None
    else if IsSubstring(order[0], text) then Some(order[0])
    else FirstContained(order[1..], text)
  }

  /**
   * `is_read_only_query`. The checks run in order: a blank query has no
   * statement; a query of whitespace and comments has no token; a leading
   * forbidden verb is reported as written; then any forbidden verb anywhere
   * in the upper-cased text rejects the query.
   */
  function IsReadOnlyQuery(query: string, order: seq<string>): (v: Verdict)
    requires IsEnumeration(order, ForbiddenOperations)
    ensures v.ok <==> v.reason == ""
    ensures v.ok <==>
      && !IsBlank(query)
      && LeadingToken(query).Some?
      && !LeadsWithForbidden(query)
      && !MentionsForbidden(query)
    ensures IsBlank(query) ==> v == Verdict(false, NoStatementReason)
    ensures !IsBlank(query) && LeadingToken(query).None? ==> v == Verdict(false, NoTokensReason)
    ensures !IsBlank(query) && LeadsWithForbidden(query) ==>
      v == Verdict(false, OperationNotAllowed(LeadingToken(query).value.text))
    ensures !IsBlank(query) && LeadingToken(query).Some? && !LeadsWithForbidden(query) && !v.ok ==>
      exists op :: op in ForbiddenOperations && IsSubstring(op, Upper(query)) && v.reason == OperationNotAllowed(op)
  {
    if IsBlank(query) then Verdict(false, NoStatementReason)
    else
      match LeadingToken(query)
      case None => Verdict(false, NoTokensReason)
      case Some(first) =>
        if Upper(first.text) in ForbiddenOperations then
          Verdict(false, OperationNotAllowed(first.text))
        else
          match FirstContained(order, Upper(query))
          case Some(op) => Verdict(false, OperationNotAllowed(op))
          case None => Verdict(true, "")
  }

  /**
   * "No valid SQL tokens found" is reported exactly for a query that is not
   * blank yet lexes to whitespace and comments only: it holds a comment.
   */
  lemma NoTokensMeansOnlyComments(query: string, order: seq<string>)
    requires IsEnumeration(order, ForbiddenOperations)
    ensures IsReadOnlyQuery(query, order).reason == NoTokensReason <==>
      && (exists i :: 0 <= i < |Lex(query)| && Lex(query)[i].kind != Whitespace)
      && (forall i :: 0 <= i < |Lex(query)| ==> !IsSignificant(Lex(query)[i]))
  {
    BlankIffOnlyWhitespace(query);
  }

  /**
   * A query whose only forbidden verb sits inside a string literal is still
   * rejected: the scan at query_validator.py:44-48 is textual.
   */
  lemma LiteralMentionRejected(query: string, order: seq<string>)
    requires query == "SELECT 'INSERT'"
    requires IsEnumeration(order, ForbiddenOperations)
    ensures !IsReadOnlyQuery(query, order).ok
  {
    var u := Upper(query);
    assert u[8..14] == "INSERT";
    assert OccursAt("INSERT", u, 8);
    assert MentionsForbidden(query);
  }

  // ---------------------------------------------------------------------------
  // Dataset-reference guard: validate_dataset_references

  /** query_validator.py:69 for one dataset `d`: delete every "`d`." and then every "d.". */
  function RemoveAllowedPrefix(query: string, d: string): (r: string)
    ensures |r| <= |query|
    ensures !IsSubstring("`" + d + "`.", query) && !IsSubstring(d + ".", query) ==> r == query
  {
    DeleteAll(DeleteAll(query, "`" + d + "`."), d + ".")
  }

  /**
   * query_validator.py:68-69: the deletions for each dataset in iteration
   * order. The rewrite only deletes, so the text never grows.
   */
  function RemoveAllowedPrefixes(query: string, order: seq<string>): (r: string)
    ensures |r| <= |query|
    decreases |order|
  {
    if order == [] then query
    else RemoveAllowedPrefixes(RemoveAllowedPrefix(query, order[0]), order[1..])
  }

  /** When no allowed prefix occurs, the rewrite leaves the query as it was. */
  lemma {:induction false} RemoveAllowedPrefixesNoMatch(query: string, order: seq<string>)
    requires forall d :: d in order ==> !IsSubstring("`" + d + "`.", query) && !IsSubstring(d + ".", query)
    ensures RemoveAllowedPrefixes(query, order) == query
  {
    if order != [] {
      assert RemoveAllowedPrefix(query, order[0]) == query;
      RemoveAllowedPrefixesNoMatch(query, order[1..]);
    }
  }

  /**
   * A numeric constant such as `1.5` or `.5`: `sqlparse` gives these a
   * number type, so the untyped-token test at query_validator.py:75 never
   * selects them.
   */
  predicate IsNumericLiteral(t: Token) {
    && t.kind == Word && t.text != []
    && (IsDigit(t.text[0]) || (t.text[0] == '.' && |t.text| >= 2 && IsDigit(t.text[1])))
  }

  /**
   * A token made of dots only, such as the `.` between two back-tick names:
   * `sqlparse` types a dot as punctuation, so query_validator.py:75 never
   * selects it.
   */
  predicate IsDotRun(t: Token) {
    forall i :: 0 <= i < |t.text| ==> t.text[i] == '.'
  }

  /** The tokens treated as untyped at query_validator.py:75: bare or back-tick quoted names. */
  predicate IsNameToken(t: Token) {
    (t.kind == Word || t.kind == QuotedName) && !IsNumericLiteral(t) && !IsDotRun(t)
  }

  /**
   * The tokens the scan at query_validator.py:75 looks at: names that
   * contain a dot. Whitespace, comments, string literals, punctuation,
   * numeric constants and lone dots are never selected.
   */
  function IsDottedName(t: Token): (b: bool)
    ensures b ==> IsSignificant(t) && t.kind != StringLiteral && t.kind != Punctuation
    ensures b ==> '.' in t.text && !IsNumericLiteral(t)
    ensures b ==> exists i :: 0 <= i < |t.text| && t.text[i] != '.'
  {
    IsNameToken(t) && '.' in t.text
  }

  /** `token.value.strip("`").split(".")`. */
  function Parts(t: Token): (parts: seq<string>)
    ensures |parts| >= 1
    ensures IsDottedName(t) ==> |parts| >= 2
  {
    var stripped := StripWhere(t.text, Among("`"));
    assert '.' in t.text ==> '.' in stripped by {
      if '.' in t.text {
        StripKeeps(t.text, Among("`"), '.');
      }
    }
    Split(stripped, '.')
  }

  /**
   * The segment the guard checks, `parts[0]`: for a dotted name, the text
   * before the first dot once the back-ticks around the name are stripped.
   */
  function CheckedSegment(t: Token): (seg: string)
    ensures '.' !in seg
    ensures IsDottedName(t) ==> seg + ['.'] <= StripWhere(t.text, Among("`"))
  {
    var parts := Parts(t);
    assert IsDottedName(t) ==> Join(parts, '.') == parts[0] + ['.'] + Join(parts[1..], '.');
    parts[0]
  }

  /**
   * query_validator.py:75-77: the token makes the guard reject. It is a
   * dotted name whose leading segment, ended by the first dot, is not an
   * allowed dataset.
   */
  function Unauthorized(t: Token, allowed: set<string>): (b: bool)
    ensures b ==> IsDottedName(t) && CheckedSegment(t) !in allowed
    ensures b ==> CheckedSegment(t) + ['.'] <= StripWhere(t.text, Among("`"))
    ensures IsDottedName(t) && CheckedSegment(t) !in allowed ==> b
  {
    IsDottedName(t) && CheckedSegment(t) !in allowed
  }

  /** Index of the first token at or after `from` that makes the guard reject, or `|ts|`. */
  function FirstUnauthorizedIndex(ts: seq<Token>, allowed: set<string>, from: nat): (k: nat)
    requires from <= |ts|
    ensures from <= k <= |ts|
    ensures forall j :: from <= j < k ==> !Unauthorized(ts[j], allowed)
    ensures k < |ts| ==> Unauthorized(ts[k], allowed)
    decreases |ts| - from
  {
    if from == |ts| then from
    else if Unauthorized(ts[from], allowed) then from
    else FirstUnauthorizedIndex(ts, allowed, from + 1)
  }

  /**
   * The scan of query_validator.py:73-78 over the lexed, rewritten query:
   * it accepts exactly when no dotted name has a leading segment outside the
   * allow-list, and otherwise reports the leading segment of the first one.
   */
  function ScanVerdict(ts: seq<Token>, allowed: set<string>): (v: Verdict)
    ensures v.ok <==> v.reason == ""
    ensures v.ok <==> forall i :: 0 <= i < |ts| ==> !Unauthorized(ts[i], allowed)
    ensures !v.ok ==>
      exists k :: 0 <= k < |ts| && Unauthorized(ts[k], allowed)
        && v.reason == UnauthorizedDataset(CheckedSegment(ts[k]))
        && forall j :: 0 <= j < k ==> !Unauthorized(ts[j], allowed)
  {
    var k := FirstUnauthorizedIndex(ts, allowed, 0);
    if k < |ts| then Verdict(false, UnauthorizedDataset(CheckedSegment(ts[k])))
    else Verdict(true, "")
  }

  /**
   * What `validate_dataset_references` returns. An empty allow-list accepts
   * every query. Otherwise the query is rewritten, lexed and scanned.
   */
  function DatasetVerdict(query: string, allowed: set<string>, order: seq<string>): (v: Verdict)
    requires IsEnumeration(order, allowed)
    ensures allowed == {} ==> v == Verdict(true, "")
    ensures allowed != {} ==> v == ScanVerdict(Lex(RemoveAllowedPrefixes(query, order)), allowed)
  {
    if allowed == {} then Verdict(true, "")
    else ScanVerdict(Lex(RemoveAllowedPrefixes(query, order)), allowed)
  }

  /** The rewrite loop of query_validator.py:68-69: the query is rebound once per allowed dataset. */
  method StripAllowedPrefixes(query: string, order: seq<string>) returns (q: string)
    ensures q == RemoveAllowedPrefixes(query, order)
  {
    q := query;
    var i := 0;
    while i < |order|
      invariant 0 <= i <= |order|
      invariant RemoveAllowedPrefixes(q, order[i..]) == RemoveAllowedPrefixes(query, order)
    {
      var d := order[i];
      assert order[i..][1..] == order[i + 1..];
      q := DeleteAll(q, "`" + d + "`.");
      q := DeleteAll(q, d + ".");
      i := i + 1;
    }
    assert order[i..] == [];
  }

  /** The scan of query_validator.py:73-78: it returns at the first offending token. */
  method ScanTokens(tokens: seq<Token>, allowed: set<string>) returns (v: Verdict)
    ensures v == ScanVerdict(tokens, allowed)
  {
    var j := 0;
    while j < |tokens|
      invariant 0 <= j <= |tokens|
      invariant FirstUnauthorizedIndex(tokens, allowed, j) == FirstUnauthorizedIndex(tokens, allowed, 0)
    {
      var t := tokens[j];
      if IsNameToken(t) && '.' in t.text {
        var parts := Split(StripWhere(t.text, Among("`")), '.');
        if |parts| >= 2 && parts[0] !in allowed {
          assert Unauthorized(t, allowed);
          return Verdict(false, UnauthorizedDataset(parts[0]));
        }
      }
      j := j + 1;
    }
    return Verdict(true, "");
  }

  /** `validate_dataset_references`: an empty allow-list accepts every query. */
  method ValidateDatasetReferences(query: string, allowed: set<string>, order: seq<string>)
    returns (v: Verdict)
    requires IsEnumeration(order, allowed)
    ensures v == DatasetVerdict(query, allowed, order)
  {
    if allowed == {} {
      return Verdict(true, "");
    }
    var q := StripAllowedPrefixes(query, order);
    var tokens := Lex(q);
    v := ScanTokens(tokens, allowed);
  }

  /**
   * With allow-list {"d"}, the quoted three-part name `p.d.t` is rewritten to
   * `p.t` and rejected for its project segment `p`.
   */
  lemma ProjectSegmentChecked(query: string, allowed: set<string>, order: seq<string>)
    requires query == "`p.d.t`" && allowed == {"d"} && order == ["d"]
    ensures DatasetVerdict(query, allowed, order) == Verdict(false, UnauthorizedDataset("p"))
  {
    var q := "`p.t`";
    RewriteExample(query, q);
    assert order[1..] == [];
    assert RemoveAllowedPrefixes(query, order) == q;
    LexExample(q);
    ScanExample(Token(QuotedName, q), allowed);
  }

  lemma ScanExample(t: Token, allowed: set<string>)
    requires t == Token(QuotedName, "`p.t`") && allowed == {"d"}
    ensures ScanVerdict([t], allowed) == Verdict(false, UnauthorizedDataset("p"))
  {
    PartsExample(t);
    assert CheckedSegment(t) == "p";
    assert Unauthorized(t, allowed);
    assert FirstUnauthorizedIndex([t], allowed, 0) == 0;
  }

  lemma RewriteExample(query: string, q: string)
    requires query == "`p.d.t`" && q == "`p.t`"
    ensures RemoveAllowedPrefix(query, "d") == q
  {
    assert "`" + "d" + "`." == "`d`." && "d" + "." == "d.";
    QuotedPrefixAbsent(query);
    PlainPrefixDeleted(query, q);
  }

  lemma QuotedPrefixAbsent(query: string)
    requires query == "`p.d.t`"
    ensures DeleteAll(query, "`d`.") == query
  {
    assert !IsSubstring("`d`.", query) by {
      forall i | 0 <= i <= |query| - 4
        ensures !OccursAt("`d`.", query, i)
      {
        assert query[i + 2] != '`';
      }
    }
  }

  lemma PlainPrefixDeleted(query: string, q: string)
    requires query == "`p.d.t`" && q == "`p.t`"
    ensures DeleteAll(query, "d.") == q
  {
    var p := "d.";
    var s1 := query[1..];
    var s2 := s1[1..];
    var s3 := s2[1..];
    PlainPrefixDeletedTail(s3);
    assert s2[..2][0] != p[0];
    assert DeleteAll(s2, p) == [s2[0]] + DeleteAll(s3, p);
    assert s1[..2][0] != p[0];
    assert DeleteAll(s1, p) == [s1[0]] + DeleteAll(s2, p);
    assert query[..2][0] != p[0];
    assert DeleteAll(query, p) == [query[0]] + DeleteAll(s1, p);
  }

  lemma PlainPrefixDeletedTail(s3: string)
    requires s3 == "d.t`"
    ensures DeleteAll(s3, "d.") == "t`"
  {
    var p := "d.";
    var s4 := s3[2..];
    var s5 := s4[1..];
    assert s5 == "`" && DeleteAll(s5, p) == s5;
    assert s4[..2][0] != p[0];
    assert DeleteAll(s4, p) == [s4[0]] + s5;
    assert s3[..2] == p;
    assert DeleteAll(s3, p) == DeleteAll(s4, p);
  }

  lemma LexExample(q: string)
    requires q == "`p.t`"
    ensures Lex(q) == [Token(QuotedName, q)]
  {
    assert KindAt(q) == QuotedName;
    assert q[1..][3] == '`';
    assert TokenLength(q) == 5;
    assert q[..5] == q;
    assert Lex(q[5..]) == [];
  }

  lemma PartsExample(t: Token)
    requires t == Token(QuotedName, "`p.t`")
    ensures Parts(t) == ["p", "t"]
  {
    StripBackTicksExample(t.text);
    SplitExample("p.t");
  }

  lemma StripBackTicksExample(text: string)
    requires text == "`p.t`"
    ensures StripWhere(text, Among("`")) == "p.t"
  {
    var cls := Among("`");
    assert StripWhere("p.t", cls) == "p.t";
    assert StripWhere("p.t`", cls) == "p.t";
  }

  lemma SplitExample(x: string)
    requires x == "p.t"
    ensures Split(x, '.') == ["p", "t"]
  {
    assert Split("t", '.') == ["t"];
    assert x[1] == '.';
    assert IndexOf(x, '.') == 1;
    assert x[2..] == "t" && x[..1] == "p";
  }

  /**
   * Back-ticks around each segment: with allow-list {"d"}, `` `p`.`d`.`t` ``
   * is rewritten to `` `p`.`t` ``, whose dot lexes on its own and is not a
   * dataset reference, so the guard accepts.
   */
  lemma BackTickSegmentsAccepted(query: string, allowed: set<string>, order: seq<string>)
    requires query == "`p`.`d`.`t`" && allowed == {"d"} && order == ["d"]
    ensures DatasetVerdict(query, allowed, order) == Verdict(true, "")
  {
    var q := "`p`.`t`";
    BackTickRewriteExample(query, q);
    assert order[1..] == [];
    assert RemoveAllowedPrefixes(query, order) == q;
    var ts := [Token(QuotedName, "`p`"), Token(Word, "."), Token(QuotedName, "`t`")];
    LexBackTicksExample(q, ts);
    ScanBackTicksExample(ts, allowed);
  }

  lemma ScanBackTicksExample(ts: seq<Token>, allowed: set<string>)
    requires ts == [Token(QuotedName, "`p`"), Token(Word, "."), Token(QuotedName, "`t`")]
    requires allowed == {"d"}
    ensures ScanVerdict(ts, allowed) == Verdict(true, "")
  {
    assert IsDotRun(ts[1]);
    assert '.' !in ts[0].text && '.' !in ts[2].text;
    assert forall i :: 0 <= i < |ts| ==> !Unauthorized(ts[i], allowed);
  }

  lemma BackTickRewriteExample(query: string, q: string)
    requires query == "`p`.`d`.`t`" && q == "`p`.`t`"
    ensures RemoveAllowedPrefix(query, "d") == q
  {
    assert "`" + "d" + "`." == "`d`." && "d" + "." == "d.";
    QuotedSegmentDeleted(query, q);
    PlainPrefixAbsent(q);
  }

  lemma PlainPrefixAbsent(q: string)
    requires q == "`p`.`t`"
    ensures DeleteAll(q, "d.") == q
  {
    assert !IsSubstring("d.", q) by {
      forall i | 0 <= i <= |q| - 2
        ensures !OccursAt("d.", q, i)
      {
        assert q[i] != 'd';
      }
    }
  }

  lemma QuotedSegmentDeleted(query: string, q: string)
    requires query == "`p`.`d`.`t`" && q == "`p`.`t`"
    ensures DeleteAll(query, "`d`.") == q
  {
    var p := "`d`.";
    var s1 := query[1..];
    QuotedSegmentDeletedAfterTick(s1);
    assert query[..4][1] != p[1];
    assert DeleteAll(query, p) == [query[0]] + DeleteAll(s1, p);
  }

  lemma QuotedSegmentDeletedAfterTick(s1: string)
    requires s1 == "p`.`d`.`t`"
    ensures DeleteAll(s1, "`d`.") == "p`.`t`"
  {
    var p := "`d`.";
    var s2 := s1[1..];
    QuotedSegmentDeletedAfterName(s2);
    assert s1[..4][0] != p[0];
    assert DeleteAll(s1, p) == [s1[0]] + DeleteAll(s2, p);
  }

  lemma QuotedSegmentDeletedAfterName(s2: string)
    requires s2 == "`.`d`.`t`"
    ensures DeleteAll(s2, "`d`.") == "`.`t`"
  {
    var p := "`d`.";
    var s3 := s2[1..];
    QuotedSegmentDeletedTail(s3);
    assert s2[..4][1] != p[1];
    assert DeleteAll(s2, p) == [s2[0]] + DeleteAll(s3, p);
  }

  lemma QuotedSegmentDeletedTail(s3: string)
    requires s3 == ".`d`.`t`"
    ensures DeleteAll(s3, "`d`.") == ".`t`"
  {
    var p := "`d`.";
    var s4 := s3[1..];
    var s8 := s4[4..];
    assert s8 == "`t`" && DeleteAll(s8, p) == s8;
    assert s4[..4] == p;
    assert DeleteAll(s4, p) == s8;
    assert s3[..4][0] != p[0];
    assert DeleteAll(s3, p) == [s3[0]] + DeleteAll(s4, p);
  }

  lemma LexBackTicksExample(q: string, ts: seq<Token>)
    requires q == "`p`.`t`"
    requires ts == [Token(QuotedName, "`p`"), Token(Word, "."), Token(QuotedName, "`t`")]
    ensures Lex(q) == ts
  {
    var r := q[3..];
    LexDotNameExample(r, ts[1..]);
    LexFirstQuotedName(q);
    assert Lex(q) == [ts[0]] + Lex(r);
  }

  lemma LexFirstQuotedName(q: string)
    requires q == "`p`.`t`"
    ensures KindAt(q) == QuotedName && TokenLength(q) == 3 && q[..3] == "`p`"
  {
    assert q[1..][1] == '`' && '`' in q[1..];
    assert IndexOf(q[1..], '`') == 1;
  }

  lemma LexDotNameExample(r: string, ts: seq<Token>)
    requires r == ".`t`"
    requires ts == [Token(Word, "."), Token(QuotedName, "`t`")]
    ensures Lex(r) == ts
  {
    var r2 := r[1..];
    LexLastQuotedName(r2);
    assert KindAt(r) == Word && !InClass(r[1], WordChar);
    assert TokenLength(r) == 1 && r[..1] == ".";
    assert Lex(r) == [ts[0]] + Lex(r2);
  }

  lemma LexLastQuotedName(r: string)
    requires r == "`t`"
    ensures Lex(r) == [Token(QuotedName, r)]
  {
    assert KindAt(r) == QuotedName;
    assert r[1..][1] == '`';
    assert TokenLength(r) == 3;
    assert r[..3] == r;
    assert Lex(r[3..]) == [];
  }

  /**
   * A decimal constant is not a dataset reference: with allow-list {"d"},
   * `1.5` passes the guard.
   */
  lemma DecimalConstantAccepted(query: string, allowed: set<string>, order: seq<string>)
    requires query == "1.5" && allowed == {"d"} && order == ["d"]
    ensures DatasetVerdict(query, allowed, order) == Verdict(true, "")
  {
    assert "`" + "d" + "`." == "`d`." && "d" + "." == "d.";
    assert !IsSubstring("`d`.", query) by {
      assert |"`d`."| > |query|;
    }
    assert !IsSubstring("d.", query) by {
      forall i | 0 <= i <= |query| - 2
        ensures !OccursAt("d.", query, i)
      {
        assert query[i] != 'd';
      }
    }
    RemoveAllowedPrefixesNoMatch(query, order);
    var t := Token(Word, query);
    assert KindAt(query) == Word;
    assert LeadingCount(query, WordChar) == 3;
    assert TokenLength(query) == 3;
    assert query[..3] == query;
    assert Lex(query[3..]) == [];
    assert Lex(query) == [t];
    assert IsNumericLiteral(t);
    assert FirstUnauthorizedIndex([t], allowed, 0) == 1;
  }

  /**
   * A dot inside a string literal is not a dataset reference: with
   * allow-list {"d"}, `'a.b'` passes the guard as one literal token.
   */
  lemma LiteralDotAccepted(query: string, allowed: set<string>, order: seq<string>)
    requires query == "'a.b'" && allowed == {"d"} && order == ["d"]
    ensures DatasetVerdict(query, allowed, order) == Verdict(true, "")
  {
    LiteralUntouched(query, order);
    LexLiteralExample(query);
    var t := Token(StringLiteral, query);
    assert !Unauthorized(t, allowed);
    assert FirstUnauthorizedIndex([t], allowed, 0) == 1;
  }

  lemma LiteralUntouched(query: string, order: seq<string>)
    requires query == "'a.b'" && order == ["d"]
    ensures RemoveAllowedPrefixes(query, order) == query
  {
    assert "`" + "d" + "`." == "`d`." && "d" + "." == "d.";
    assert !IsSubstring("`d`.", query) by {
      forall i | 0 <= i <= |query| - 4
        ensures !OccursAt("`d`.", query, i)
      {
        assert query[i] != '`';
      }
    }
    assert !IsSubstring("d.", query) by {
      forall i | 0 <= i <= |query| - 2
        ensures !OccursAt("d.", query, i)
      {
        assert query[i] != 'd';
      }
    }
    RemoveAllowedPrefixesNoMatch(query, order);
  }

  lemma LexLiteralExample(query: string)
    requires query == "'a.b'"
    ensures Lex(query) == [Token(StringLiteral, query)]
  {
    assert KindAt(query) == StringLiteral;
    assert query[1..][3] == '\'';
    assert TokenLength(query) == 5;
    assert query[..5] == query;
    assert Lex(query[5..]) == [];
  }
}

=== FILE: sequential_thinking.dfy ===
/**
 * The in-memory sequential-thinking store of
 * `app/routers/sequential_thinking.py`: an append-only history of thought
 * records and, for every non-empty branch identifier seen so far, the ids of
 * the thoughts filed under it, keys kept in first-insertion order as a Python
 * dict keeps them. The fresh id and the current time are parameters of
 * `ProcessThought`; the console print is not modelled.
 */
module SequentialThinking {
  import opened StrOps

  /** A request body; `thoughtNumber` and `totalThoughts` are positive (schema `gt=0`). */
  datatype ThoughtInput = ThoughtInput(
    thought: string,
    nextThoughtNeeded: bool,
    thoughtNumber: int,
    totalThoughts: int,
    isRevision: Option<bool>,
    revisesThought: Option<int>,
    branchFromThought: Option<int>,
    branchId: Option<string>,
    needsMoreThoughts: Option<bool>)

  predicate ValidInput(t: ThoughtInput) {
    t.thoughtNumber > 0 && t.totalThoughts > 0
  }

  /** A stored thought; the timestamp is whatever clock value the caller supplied. */
  datatype ThoughtRecord = ThoughtRecord(
    id: string,
    thought: string,
    thoughtNumber: int,
    totalThoughts: int,
    nextThoughtNeeded: bool,
    isRevision: Option<bool>,
    revisesThought: Option<int>,
    branchFromThought: Option<int>,
    branchId: Option<string>,
    needsMoreThoughts: Option<bool>,
    timestamp: int)

  datatype ThoughtResponse = ThoughtResponse(
    thoughtId: string,
    thoughtNumber: int,
    totalThoughts: int,
    nextThoughtNeeded: bool,
    branches: seq<string>,
    thoughtHistoryLength: nat,
    timestamp: int)

  datatype BranchDetails = BranchDetails(id: string, thoughts: seq<string>)

  datatype BranchCount = BranchCount(id: string, thoughtCount: nat)

  datatype Metadata = Metadata(totalThoughts: nat, totalBranches: nat, branches: seq<BranchCount>)

  datatype HttpError = HttpError(status: int, detail: string)

  datatype Result<T> = Success(value: T) | Failure(error: HttpError)

  const BadRequest: int := 400
  const NotFound: int := 404

  const RevisionWithoutTarget: string := "If is_revision is true, revises_thought must be specified"
  const BranchWithoutId: string := "If branch_from_thought is specified, branch_id must be provided"

  function BranchNotFound(branchId: string): string {
    "Branch with ID " + branchId + " not found"
  }

  // ---------------------------------------------------------------------------
  // Python truthiness of the optional fields

  /** `if x.is_revision`: only an explicit `True` counts. */
  predicate IsTrue(b: Option<bool>) {
    b == Some(true)
  }

  /** `if x.branch_id`: present and not the empty string. */
  predicate NamesBranch(b: Option<string>) {
    b.Some? && b.value != []
  }

  /** `if x.branch_from_thought`: present and not zero. */
  predicate IsNonZero(n: Option<int>) {
    n.Some? && n.value != 0
  }

  // ---------------------------------------------------------------------------
  // process_thought, the parts that do not touch the store

  /**
   * The input checks of sequential_thinking.py:74-80, in order: a revision
   * must say what it revises, and a branch point needs a branch identifier
   * (an empty one is accepted).
   */
  function InputError(t: ThoughtInput): (e: Option<HttpError>)
    ensures e.Some? ==> e.value.status == BadRequest
    ensures e.None? <==>
      && !(IsTrue(t.isRevision) && t.revisesThought.None?)
      && !(t.branchFromThought.Some? && t.branchId.None?)
    ensures IsTrue(t.isRevision) && t.revisesThought.None? ==>
      e == Some(HttpError(BadRequest, RevisionWithoutTarget))
    ensures !(IsTrue(t.isRevision) && t.revisesThought.None?) && t.branchFromThought.Some? && t.branchId.None? ==>
      e == Some(HttpError(BadRequest, BranchWithoutId))
  {
    if IsTrue(t.isRevision) && t.revisesThought.None? then Some(HttpError(BadRequest, RevisionWithoutTarget))
    else if t.branchFromThought.Some? && t.branchId.None? then Some(HttpError(BadRequest, BranchWithoutId))
    else None
  }

  /** sequential_thinking.py:83-85: the estimate is raised to the current number when that is larger. */
  function AdjustedTotal(t: ThoughtInput): (n: int)
    ensures n >= t.thoughtNumber && n >= t.totalThoughts
    ensures n == t.thoughtNumber || n == t.totalThoughts
  {
    if t.thoughtNumber > t.totalThoughts then t.thoughtNumber else t.totalThoughts
  }

  /** The record of sequential_thinking.py:92-104. */
  function MakeRecord(t: ThoughtInput, id: string, now: int): (r: ThoughtRecord)
    ensures r.id == id && r.timestamp == now && r.thought == t.thought
    ensures r.thoughtNumber == t.thoughtNumber && r.totalThoughts == AdjustedTotal(t)
    ensures r.branchId == t.branchId && r.isRevision == t.isRevision
    ensures r.nextThoughtNeeded == t.nextThoughtNeeded && r.revisesThought == t.revisesThought
    ensures r.branchFromThought == t.branchFromThought && r.needsMoreThoughts == t.needsMoreThoughts
  {
    ThoughtRecord(id, t.thought, t.thoughtNumber, AdjustedTotal(t), t.nextThoughtNeeded,
                  t.isRevision, t.revisesThought, t.branchFromThought, t.branchId,
                  t.needsMoreThoughts, now)
  }

  // ---------------------------------------------------------------------------
  // What the branch dictionary holds, as a function of the history

  /** The record files its id under a branch: it names a non-empty branch `b`. */
  predicate FiledUnder(r: ThoughtRecord, b: string) {
    NamesBranch(r.branchId) && r.branchId.value == b
  }

  /**
   * The branch identifiers in the order they were first used: the keys of
   * the dictionary after the whole history was processed.
   */
  function BranchKeys(h: seq<ThoughtRecord>): (keys: seq<string>)
    ensures forall i, j :: 0 <= i < j < |keys| ==> keys[i] != keys[j]
    ensures forall b :: b in keys <==> exists i :: 0 <= i < |h| && FiledUnder(h[i], b)
  {
    if h == [] then []
    else
      var prefix := h[..|h| - 1];
      var last := h[|h| - 1];
      var keys := BranchKeys(prefix);
      assert forall i :: 0 <= i < |prefix| ==> h[i] == prefix[i];
      if NamesBranch(last.branchId) && last.branchId.value !in keys then keys + [last.branchId.value]
      else keys
  }

  /** The ids filed under branch `b`, in the order their records were appended. */
  function BranchThoughts(h: seq<ThoughtRecord>, b: string): (ids: seq<string>)
    ensures |ids| <= |h|
    ensures ids != [] ==> exists i :: 0 <= i < |h| && FiledUnder(h[i], b)
  {
    if h == [] then []
    else
      var prefix := h[..|h| - 1];
      var ids := BranchThoughts(prefix, b);
      assert forall i :: 0 <= i < |prefix| ==> h[i] == prefix[i];
      if FiledUnder(h[|h| - 1], b) then ids + [h[|h| - 1].id] else ids
  }

  lemma BranchThoughtsAppend(h: seq<ThoughtRecord>, r: ThoughtRecord, b: string)
    ensures BranchThoughts(h + [r], b) == BranchThoughts(h, b) + (if FiledUnder(r, b) then [r.id] else [])
  {
    assert (h + [r])[..|h|] == h;
  }

  lemma BranchKeysAppend(h: seq<ThoughtRecord>, r: ThoughtRecord)
    ensures BranchKeys(h + [r]) ==
      BranchKeys(h) + (if NamesBranch(r.branchId) && r.branchId.value !in BranchKeys(h) then [r.branchId.value] else [])
  {
    assert (h + [r])[..|h|] == h;
  }

  /** A branch that is not yet a key has no thoughts filed under it. */
  lemma UnusedBranchEmpty(h: seq<ThoughtRecord>, b: string)
    requires b !in BranchKeys(h)
    ensures BranchThoughts(h, b) == []
  {
  }

  /**
   * A dictionary and key order agree with a history: the keys are the
   * history's branch identifiers in first-use order, and each key maps to
   * the ids filed under it.
   */
  ghost predicate Consistent(h: seq<ThoughtRecord>, bs: map<string, seq<string>>, order: seq<string>) {
    && order == BranchKeys(h)
    && (forall b :: b in bs <==> b in order)
    && (forall b :: b in bs ==> bs[b] == BranchThoughts(h, b))
  }

  /** sequential_thinking.py:111-113: `id` appended to the list of `b`, created empty if missing. */
  function FileUnder(bs: map<string, seq<string>>, b: string, id: string): (r: map<string, seq<string>>)
    ensures r.Keys == bs.Keys + {b}
    ensures r[b] == (if b in bs then bs[b] else []) + [id]
    ensures forall k :: k in bs && k != b ==> r[k] == bs[k]
  {
    bs[b := (if b in bs then bs[b] else []) + [id]]
  }

  /** Filing a new record's id keeps the dictionary and key order in step with the longer history. */
  lemma AppendKeepsConsistent(h: seq<ThoughtRecord>, bs: map<string, seq<string>>, order: seq<string>, r: ThoughtRecord)
    requires Consistent(h, bs, order)
    ensures NamesBranch(r.branchId) ==>
      var b := r.branchId.value;
      Consistent(h + [r], FileUnder(bs, b, r.id), order + (if b in bs then [] else [b]))
    ensures !NamesBranch(r.branchId) ==> Consistent(h + [r], bs, order)
  {
    BranchKeysAppend(h, r);
    forall b {
      BranchThoughtsAppend(h, r, b);
    }
    if NamesBranch(r.branchId) && r.branchId.value !in bs {
      UnusedBranchEmpty(h, r.branchId.value);
    }
  }

  // ---------------------------------------------------------------------------
  // get_metadata's counts

  /** The per-branch counts, one per key in key order. */
  function Counts(keys: seq<string>, h: seq<ThoughtRecord>): (cs: seq<BranchCount>)
    ensures |cs| == |keys|
    ensures forall i :: 0 <= i < |keys| ==> cs[i] == BranchCount(keys[i], |BranchThoughts(h, keys[i])|)
  {
    if keys == [] then [] else [BranchCount(keys[0], |BranchThoughts(h, keys[0])|)] + Counts(keys[1..], h)
  }

  function SumCounts(cs: seq<BranchCount>): nat {
    if cs == [] then 0 else cs[0].thoughtCount + SumCounts(cs[1..])
  }

  /** How many of `keys` the record files its id under. */
  function Hits(keys: seq<string>, r: ThoughtRecord): nat {
    if keys == [] then 0 else (if FiledUnder(r, keys[0]) then 1 else 0) + Hits(keys[1..], r)
  }

  /** Distinct keys: a record is filed under at most one of them. */
  lemma {:induction false} HitsAtMostOne(keys: seq<string>, r: ThoughtRecord)
    requires forall i, j :: 0 <= i < j < |keys| ==> keys[i] != keys[j]
    ensures Hits(keys, r) <= 1
    ensures Hits(keys, r) == 1 ==> NamesBranch(r.branchId) && r.branchId.value in keys
    decreases |keys|
  {
    if keys != [] {
      HitsAtMostOne(keys[1..], r);
      if FiledUnder(r, keys[0]) {
        assert keys[0] !in keys[1..];
        assert Hits(keys[1..], r) == 0;
      }
    }
  }

  /** Appending a record raises the total over `keys` by the number of keys it is filed under. */
  lemma {:induction false} SumCountsAppend(keys: seq<string>, h: seq<ThoughtRecord>, r: ThoughtRecord)
    ensures SumCounts(Counts(keys, h + [r])) == SumCounts(Counts(keys, h)) + Hits(keys, r)
    decreases |keys|
  {
    if keys != [] {
      BranchThoughtsAppend(h, r, keys[0]);
      SumCountsAppend(keys[1..], h, r);
    }
  }

  /** Over distinct keys, the per-branch counts add up to at most the length of the history. */
  lemma {:induction false} CountsBounded(keys: seq<string>, h: seq<ThoughtRecord>)
    requires forall i, j :: 0 <= i < j < |keys| ==> keys[i] != keys[j]
    ensures SumCounts(Counts(keys, h)) <= |h|
    decreases |h|
  {
    if h == [] {
      ZeroCounts(keys, h);
    } else {
      var prefix := h[..|h| - 1];
      assert h == prefix + [h[|h| - 1]];
      CountsBounded(keys, prefix);
      SumCountsAppend(keys, prefix, h[|h| - 1]);
      HitsAtMostOne(keys, h[|h| - 1]);
    }
  }

  lemma {:induction false} ZeroCounts(keys: seq<string>, h: seq<ThoughtRecord>)
    requires h == []
    ensures SumCounts(Counts(keys, h)) == 0
    decreases |keys|
  {
    if keys != [] {
      ZeroCounts(keys[1..], h);
    }
  }

  /** A sequence without repetitions has as many elements as its set. */
  lemma {:induction false} DistinctCardinality(s: seq<string>)
    requires forall i, j :: 0 <= i < j < |s| ==> s[i] != s[j]
    ensures |set x | x in s| == |s|
    decreases |s|
  {
    if s != [] {
      DistinctCardinality(s[1..]);
      assert (set x | x in s) == (set x | x in s[1..]) + {s[0]};
      assert s[0] !in s[1..];
    }
  }

  // ---------------------------------------------------------------------------
  // format_thought

  /** f-string rendering of an optional integer. */
  function OptIntText(n: Option<int>): string {
    match n
    case None => "None"
    case Some(v) => IntToString(v)
  }

  /** f-string rendering of an optional string. */
  function OptStringText(s: Option<string>): string {
    match s
    case None => "None"
    case Some(v) => v
  }

  const RevisionPrefix: string := "\U{1F504} Revision"
  const BranchPrefix: string := "\U{1F33F} Branch"
  const ThoughtPrefix: string := "\U{1F4AD} Thought"

  /** sequential_thinking.py:25-33: a revision wins over a branch, a branch over a plain thought. */
  function Prefix(r: ThoughtRecord): (p: string)
    ensures IsTrue(r.isRevision) ==> p == RevisionPrefix
    ensures !IsTrue(r.isRevision) && IsNonZero(r.branchFromThought) ==> p == BranchPrefix
    ensures !IsTrue(r.isRevision) && !IsNonZero(r.branchFromThought) ==> p == ThoughtPrefix
  {
    if IsTrue(r.isRevision) then RevisionPrefix
    else if IsNonZero(r.branchFromThought) then BranchPrefix
    else ThoughtPrefix
  }

  /**
   * sequential_thinking.py:27-33: the parenthesised context after the
   * position; there is one exactly when the prefix is not the plain-thought
   * one, and it names the revised thought or the branch point and branch.
   */
  function Context(r: ThoughtRecord): (c: string)
    ensures c == "" <==> Prefix(r) == ThoughtPrefix
    ensures c != "" ==> |c| >= 2 && c[..2] == " (" && c[|c| - 1] == ')'
    ensures Prefix(r) == RevisionPrefix ==> c == " (revising thought " + OptIntText(r.revisesThought) + ")"
    ensures Prefix(r) == BranchPrefix ==>
      c == " (from thought " + OptIntText(r.branchFromThought) + ", ID: " + OptStringText(r.branchId) + ")"
  {
    if IsTrue(r.isRevision) then " (revising thought " + OptIntText(r.revisesThought) + ")"
    else if IsNonZero(r.branchFromThought) then
      " (from thought " + OptIntText(r.branchFromThought) + ", ID: " + OptStringText(r.branchId) + ")"
    else ""
  }

  /** sequential_thinking.py:35: prefix, the thought's position and estimate, then the context. */
  function Header(r: ThoughtRecord): (h: string)
    ensures |h| > |Prefix(r)| && h[..|Prefix(r)|] == Prefix(r) && h[|Prefix(r)|] == ' '
  {
    var h := Prefix(r) + " " + IntToString(r.thoughtNumber) + "/" + IntToString(r.totalThoughts) + Context(r);
    assert h[..|Prefix(r)|] == Prefix(r);
    h
  }

  /** `s.ljust(width)`: padded on the right with blanks up to `width`, never cut. */
  function LJust(s: string, width: int): (r: string)
    ensures |r| == if |s| < width then width else |s|
    ensures r[..|s|] == s
    ensures forall i :: |s| <= i < |r| ==> r[i] == ' '
  {
    if |s| < width then s + Repeat(' ', width - |s|) else s
  }

  function Repeat(c: char, n: nat): (r: string)
    ensures |r| == n && forall i :: 0 <= i < n ==> r[i] == c
  {
    if n == 0 then [] else [c] + Repeat(c, n - 1)
  }

  /** sequential_thinking.py:38: four more than the longer of header and thought. */
  function BorderLen(header: string, thought: string): (n: nat)
    ensures n >= |header| + 4 && n >= |thought| + 4
    ensures n == |header| + 4 || n == |thought| + 4
  {
    if |header| > |thought| then |header| + 4 else |thought| + 4
  }

  /** `line` is `width` wide: `left`, then horizontal rules, then `right`. */
  predicate Ruled(line: string, left: char, right: char, width: nat) {
    && |line| == width && width >= 2
    && line[0] == left && line[width - 1] == right
    && forall j :: 0 < j < width - 1 ==> line[j] == '\U{2500}'
  }

  /**
   * `line` is `width` wide: `left`, a blank, `text`, blanks up to one
   * before the end, then `right`.
   */
  predicate Framed(line: string, left: char, text: string, right: char, width: nat) {
    && |line| == width && |text| + 4 <= width
    && line[0] == left && line[width - 1] == right
    && line[1] == ' ' && line[2..2 + |text|] == text
    && forall j :: 2 + |text| <= j < width - 1 ==> line[j] == ' '
  }

  function BorderLine(left: char, n: nat, right: char): (line: string)
    ensures Ruled(line, left, right, n + 2)
  {
    [left] + Repeat('\U{2500}', n) + [right]
  }

  function TextLine(left: char, text: string, inner: nat, right: char): (line: string)
    requires |text| <= inner
    ensures Framed(line, left, text, right, inner + 4)
  {
    var padded := LJust(text, inner);
    var line := [left, ' '] + padded + [' ', right];
    assert line[2..2 + |text|] == padded[..|text|];
    line
  }

  /**
   * The five lines of the box of sequential_thinking.py:41-46, each
   * `BorderLen + 2` wide: top border, the header framed, the separator, the
   * thought framed, the bottom border.
   */
  function BoxLines(header: string, thought: string): (lines: seq<string>)
    ensures |lines| == 5
    ensures Ruled(lines[0], '\U{250C}', '\U{2510}', BorderLen(header, thought) + 2)
    ensures Framed(lines[1], '\U{2502}', header, '\U{2502}', BorderLen(header, thought) + 2)
    ensures Ruled(lines[2], '\U{251C}', '\U{2524}', BorderLen(header, thought) + 2)
    ensures Framed(lines[3], '\U{2502}', thought, '\U{2502}', BorderLen(header, thought) + 2)
    ensures Ruled(lines[4], '\U{2514}', '\U{2518}', BorderLen(header, thought) + 2)
  {
    var n := BorderLen(header, thought);
    [BorderLine('\U{250C}', n, '\U{2510}'),
     TextLine('\U{2502}', header, n - 2, '\U{2502}'),
     BorderLine('\U{251C}', n, '\U{2524}'),
     TextLine('\U{2502}', thought, n - 2, '\U{2502}'),
     BorderLine('\U{2514}', n, '\U{2518}')]
  }

  /** `format_thought`: a newline, then the box around the header and the thought, line by line. */
  function FormatThought(r: ThoughtRecord): (s: string)
    ensures |s| > 0 && s[0] == '\n' && s[1..] == Join(BoxLines(Header(r), r.thought), '\n')
  {
    "\n" + Join(BoxLines(Header(r), r.thought), '\n')
  }

  // ---------------------------------------------------------------------------
  // The store

  class ThoughtStore {
    /** `thought_history`, oldest first. */
    var history: seq<ThoughtRecord>
    /** `branches`: branch identifier to the ids filed under it. */
    var branches: map<string, seq<string>>
    /** The dictionary's keys in insertion order. */
    var branchOrder: seq<string>

    /** The dictionary is exactly what the history determines. */
    ghost predicate Valid()
      reads this
    {
      Consistent(history, branches, branchOrder)
    }

    constructor()
      ensures Valid()
      ensures history == [] && branches == map[] && branchOrder == []
    {
      history := [];
      branches := map[];
      branchOrder := [];
    }

    /**
     * `process_thought`. A rejected input leaves the store as it was. An
     * accepted one appends one record; a non-empty branch identifier gets the
     * new id appended to its list, created (and its key appended) when new;
     * the response reports the adjusted total, the keys and the new length.
     */
    method ProcessThought(t: ThoughtInput, id: string, now: int) returns (r: Result<ThoughtResponse>)
      requires Valid() && ValidInput(t)
      modifies this
      ensures Valid()
      ensures InputError(t).Some? ==>
        && r == Failure(InputError(t).value)
        && history == old(history) && branches == old(branches) && branchOrder == old(branchOrder)
      ensures InputError(t).None? ==>
        && history == old(history) + [MakeRecord(t, id, now)]
        && r == Success(ThoughtResponse(id, t.thoughtNumber, AdjustedTotal(t), t.nextThoughtNeeded,
                                        branchOrder, |history|, now))
      ensures InputError(t).None? && NamesBranch(t.branchId) ==>
        && branches == FileUnder(old(branches), t.branchId.value, id)
        && branchOrder == old(branchOrder) + (if t.branchId.value in old(branches) then [] else [t.branchId.value])
      ensures !(InputError(t).None? && NamesBranch(t.branchId)) ==>
        branches == old(branches) && branchOrder == old(branchOrder)
    {
      var e := InputError(t);
      if e.Some? {
        return Failure(e.value);
      }
      var record := MakeRecord(t, id, now);
      AppendKeepsConsistent(history, branches, branchOrder, record);
      history := history + [record];
      if NamesBranch(t.branchId) {
        var b := t.branchId.value;
        var bs := branches;
        if b !in bs {
          bs := bs[b := []];
          branchOrder := branchOrder + [b];
        }
        bs := bs[b := bs[b] + [id]];
        branches := bs;
      }
      return Success(ThoughtResponse(id, t.thoughtNumber, AdjustedTotal(t), t.nextThoughtNeeded,
                                     branchOrder, |history|, now));
    }

    /** `get_thought_history`: every stored record, in the order it was appended. */
    function GetThoughtHistory(): (h: seq<ThoughtRecord>)
      reads this
      requires Valid()
      ensures h == history
      ensures BranchKeys(h) == branchOrder
    {
      history
    }

    /**
     * `get_branch_thoughts`: 404 for an identifier that is not a key, and
     * otherwise the ids filed under it in the order they were appended.
     */
    function GetBranchThoughts(b: string): (r: Result<BranchDetails>)
      reads this
      requires Valid()
      ensures b !in branchOrder ==> r == Failure(HttpError(NotFound, BranchNotFound(b)))
      ensures b in branchOrder ==> r == Success(BranchDetails(b, BranchThoughts(history, b)))
      ensures r.Success? ==> exists i :: 0 <= i < |history| && FiledUnder(history[i], b)
    {
      if b !in branches then Failure(HttpError(NotFound, BranchNotFound(b)))
      else Success(BranchDetails(b, branches[b]))
    }

    /**
     * `get_metadata`: the number of records, the number of branches, and one
     * count per branch in key order; the counts never add up to more than
     * the number of records.
     */
    function GetMetadata(): (m: Metadata)
      reads this
      requires Valid()
      ensures m.totalThoughts == |history|
      ensures m.totalBranches == |branchOrder|
      ensures |m.branches| == |branchOrder|
      ensures forall i :: 0 <= i < |branchOrder| ==>
        m.branches[i] == BranchCount(branchOrder[i], |BranchThoughts(history, branchOrder[i])|)
      ensures SumCounts(m.branches) <= m.totalThoughts
    {
      assert branches.Keys == set x | x in branchOrder;
      DistinctCardinality(branchOrder);
      CountsBounded(branchOrder, history);
      Metadata(|history|, |branches|, Counts(branchOrder, history))
    }
  }
}

=== FILE: settings.dfy ===
/**
 * The `ALLOWED_DATASETS` setting of `app/config/settings.py`: the raw
 * `BQ_ALLOWED_DATASETS` value (the empty string when the variable is unset)
 * becomes either "no restriction" (`None`) or a set of dataset names.
 */
module Settings {
  import opened StrOps

  /** The names the comma-separated pieces contribute: each piece stripped, blank ones dropped. */
  function Names(pieces: seq<string>): (names: set<string>)
    ensures forall p :: p in pieces && !IsBlank(p) ==> Strip(p) in names
    ensures forall d :: d in names ==> d != [] && !IsSpace(d[0]) && !IsSpace(d[|d| - 1])
  {
    set p | p in pieces && Strip(p) != [] :: Strip(p)
  }

  /**
   * The value is unrestricted exactly when it is empty or exactly `*`;
   * otherwise it is the set of names of its comma-separated pieces.
   */
  function ParseAllowedDatasets(raw: string): (r: Option<set<string>>)
    ensures r.None? <==> raw == "" || raw == "*"
  {
    if raw == "" || raw == "*" then None else Some(Names(Split(raw, ',')))
  }

  /**
   * Every non-blank piece contributes its stripped text, and every name
   * comes from a piece: none is empty, padded with whitespace or holds a
   * comma.
   */
  lemma ParsedNamesClean(raw: string)
    requires raw != "" && raw != "*"
    ensures forall p :: p in Split(raw, ',') && !IsBlank(p) ==> Strip(p) in ParseAllowedDatasets(raw).value
    ensures forall d :: d in ParseAllowedDatasets(raw).value ==>
      && d != []
      && !IsSpace(d[0]) && !IsSpace(d[|d| - 1])
      && ',' !in d
      && exists p :: p in Split(raw, ',') && Strip(p) == d
  {
    var pieces := Split(raw, ',');
    forall p | p in pieces && Strip(p) != [] && ',' in Strip(p)
      ensures false
    {
      StripFrom(p, Space, ',');
    }
  }

  /** A value of separators and whitespace only, other than the empty one, restricts to no dataset at all. */
  lemma SeparatorsOnlyAllowNothing(raw: string)
    requires raw != []
    requires forall i :: 0 <= i < |raw| ==> raw[i] == ',' || IsSpace(raw[i])
    ensures ParseAllowedDatasets(raw) == Some({})
  {
    var pieces := Split(raw, ',');
    assert raw != "*" by { assert raw[0] == ',' || IsSpace(raw[0]); }
    forall k | 0 <= k < |pieces|
      ensures Strip(pieces[k]) == []
    {
      forall j | 0 <= j < |pieces[k]|
        ensures IsSpace(pieces[k][j])
      {
        JoinContains(pieces, ',', k, pieces[k][j]);
      }
    }
    assert Names(pieces) == {};
  }

  /** The order of the pieces does not matter. */
  lemma {:induction false} PieceOrderIrrelevant(x: string, y: string)
    ensures ParseAllowedDatasets(x + "," + y) == ParseAllowedDatasets(y + "," + x)
  {
    var xy, yx := x + "," + y, y + "," + x;
    assert xy == x + [','] + y && yx == y + [','] + x;
    assert xy[|x|] == ',' && yx[|y|] == ',';
    assert xy != "" && xy != "*" && yx != "" && yx != "*";
    NamesSwap(x, y);
  }

  lemma {:induction false} NamesSwap(x: string, y: string)
    ensures Names(Split(x + [','] + y, ',')) == Names(Split(y + [','] + x, ','))
  {
    var a, b := Split(x, ','), Split(y, ',');
    SplitAround(x, y, ',');
    SplitAround(y, x, ',');
    NamesConcat(a, b);
    NamesConcat(b, a);
  }

  /** Repeating a piece does not matter. */
  lemma {:induction false} RepeatedPiecesIrrelevant(x: string)
    requires x != "" && x != "*"
    ensures ParseAllowedDatasets(x + "," + x) == ParseAllowedDatasets(x)
  {
    var xx := x + "," + x;
    assert xx == x + [','] + x;
    assert |xx| > 1;
    var a := Split(x, ',');
    SplitAround(x, x, ',');
    NamesConcat(a, a);
    assert Names(Split(xx, ',')) == Names(a);
  }

  lemma NamesConcat(a: seq<string>, b: seq<string>)
    ensures Names(a + b) == Names(a) + Names(b)
  {
    assert forall p :: p in a + b <==> p in a || p in b;
  }

  /** Only the exact value `*` is the wildcard: with surrounding blanks it names a dataset called `*`. */
  lemma PaddedStarIsAName(raw: string)
    requires raw == " * "
    ensures ParseAllowedDatasets(raw) == Some({"*"})
  {
    assert ',' !in raw;
    assert Split(raw, ',') == [raw];
    var cls := Space;
    assert StripWhere(raw[1..][..1], cls) == "*";
    assert raw[1..][..1] == raw[1..][..|raw[1..]| - 1];
    assert StripWhere(raw[1..], cls) == "*";
    assert Strip(raw) == "*";
    assert Names([raw]) == {"*"};
  }
}

=== FILE: sql_lexer.dfy ===
/**
 * A minimal SQL lexer standing in for the third-party `sqlparse` tokenizer
 * that `app/utils/query_validator.py` calls. It cuts the text into
 * whitespace runs, `--` line comments, block comments, quoted string
 * literals, back-tick quoted names, bare words (letters, digits, `_` and `.`)
 * and single punctuation characters. It does not split statements: a `;` is
 * an ordinary punctuation token.
 */
module SqlLexer {
  import opened StrOps

  datatype Kind =
    | Whitespace
    | LineComment
    | BlockComment
    | StringLiteral
    | QuotedName
    | Word
    | Punctuation

  datatype Token = Token(kind: Kind, text: string)

  predicate IsWordChar(c: char) {
    InClass(c, WordChar)
  }

  predicate IsQuote(c: char) {
    c == '\'' || c == '"'
  }

  predicate StartsWithPair(s: string, a: char, b: char) {
    |s| >= 2 && s[0] == a && s[1] == b
  }

  /** Whitespace and comments are skipped by the statement-type check. */
  predicate IsSignificant(t: Token) {
    t.kind != Whitespace && t.kind != LineComment && t.kind != BlockComment
  }

  /** What every token the lexer produces looks like, by kind. */
  predicate WellFormed(t: Token) {
    && t.text != []
    && match t.kind
       case Whitespace => IsBlank(t.text)
       case LineComment => StartsWithPair(t.text, '-', '-') && '\n' !in t.text[..|t.text| - 1]
       case BlockComment =>
         && StartsWithPair(t.text, '/', '*')
         && forall j :: 2 <= j < |t.text| - 2 ==> !(t.text[j] == '*' && t.text[j + 1] == '/')
       case StringLiteral => IsQuote(t.text[0]) && (|t.text| >= 2 ==> t.text[0] !in t.text[1..|t.text| - 1])
       case QuotedName => t.text[0] == '`' && (|t.text| >= 2 ==> '`' !in t.text[1..|t.text| - 1])
       case Word => forall i :: 0 <= i < |t.text| ==> IsWordChar(t.text[i])
       case Punctuation =>
         && |t.text| == 1
         && !IsSpace(t.text[0]) && !IsWordChar(t.text[0])
         && !IsQuote(t.text[0]) && t.text[0] != '`'
  }

  /**
   * A comment, literal or quoted name that ends where it should: a line
   * comment with its newline, a block comment with its closing star-slash,
   * a literal or back-tick name with its closing quote. Other kinds are
   * always closed.
   */
  predicate Closed(t: Token) {
    && t.text != []
    && match t.kind
       case LineComment => t.text[|t.text| - 1] == '\n'
       case BlockComment => |t.text| >= 4 && t.text[|t.text| - 2] == '*' && t.text[|t.text| - 1] == '/'
       case StringLiteral => |t.text| >= 2 && t.text[|t.text| - 1] == t.text[0]
       case QuotedName => |t.text| >= 2 && t.text[|t.text| - 1] == '`'
       case _ => true
  }

  /** `a` followed by `b` opens a comment: two dashes, or a slash and a star. */
  predicate OpensComment(a: char, b: char) {
    (a == '-' && b == '-') || (a == '/' && b == '*')
  }

  /** The texts of the tokens, one after the other. */
  function Concat(ts: seq<Token>): string {
    if ts == [] then [] else ts[0].text + Concat(ts[1..])
  }

  /** Length of `s` up to and including the first `c`, or all of `s`. */
  function ThroughChar(s: string, c: char): (n: nat)
    ensures n <= |s|
    ensures c !in s[..if n == 0 then 0 else n - 1]
    ensures c in s <==> 0 < n && s[n - 1] == c
  {
    if c in s then IndexOf(s, c) + 1 else |s|
  }

  /** Length of `s` up to and including the first `*` + `/`, or all of `s`. */
  function ThroughCommentClose(s: string): (n: nat)
    ensures n <= |s|
    ensures n < |s| ==> n >= 2 && s[n - 2] == '*' && s[n - 1] == '/'
    ensures forall j :: 0 <= j < n - 2 ==> !(s[j] == '*' && s[j + 1] == '/')
  {
    if |s| < 2 then |s|
    else if StartsWithPair(s, '*', '/') then 2
    else 1 + ThroughCommentClose(s[1..])
  }

  /** The kind of the token that starts `s`. */
  function KindAt(s: string): Kind
    requires s != []
  {
    if IsSpace(s[0]) then Whitespace
    else if StartsWithPair(s, '-', '-') then LineComment
    else if StartsWithPair(s, '/', '*') then BlockComment
    else if IsQuote(s[0]) then StringLiteral
    else if s[0] == '`' then QuotedName
    else if IsWordChar(s[0]) then Word
    else Punctuation
  }

  /** The length of the token that starts `s`. */
  function TokenLength(s: string): (n: nat)
    requires s != []
    ensures 1 <= n <= |s|
  {
    match KindAt(s)
    case Whitespace => LeadingCount(s, Space)
    case LineComment => 2 + ThroughChar(s[2..], '\n')
    case BlockComment => 2 + ThroughCommentClose(s[2..])
    case StringLiteral => 1 + ThroughChar(s[1..], s[0])
    case QuotedName => 1 + ThroughChar(s[1..], '`')
    case Word => LeadingCount(s, WordChar)
    case Punctuation => 1
  }

  /** The token that starts `s` is well formed. */
  lemma FirstTokenWellFormed(s: string)
    requires s != []
    ensures WellFormed(Token(KindAt(s), s[..TokenLength(s)]))
  {
    var n := TokenLength(s);
    var text := s[..n];
    match KindAt(s)
    case LineComment =>
      var m := ThroughChar(s[2..], '\n');
      if m > 0 {
        assert text[..|text| - 1] == s[..2] + s[2..][..m - 1];
      }
    case BlockComment =>
      forall j | 2 <= j < n - 2
        ensures !(text[j] == '*' && text[j + 1] == '/')
      {
        assert text[j] == s[2..][j - 2] && text[j + 1] == s[2..][j - 1];
      }
    case StringLiteral =>
      if n >= 2 {
        assert text[1..|text| - 1] == s[1..][..n - 2];
      }
    case QuotedName =>
      if n >= 2 {
        assert text[1..|text| - 1] == s[1..][..n - 2];
      }
    case _ =>
  }

  /**
   * A token the text goes on after is closed, and a word or whitespace run
   * stops only at a character that cannot extend it.
   */
  lemma FirstTokenClosed(s: string)
    requires s != [] && TokenLength(s) < |s|
    ensures Closed(Token(KindAt(s), s[..TokenLength(s)]))
    ensures KindAt(s) == Word ==> !IsWordChar(s[TokenLength(s)])
    ensures KindAt(s) == Whitespace ==> !IsSpace(s[TokenLength(s)])
    ensures KindAt(s) == Punctuation ==> !OpensComment(s[0], s[TokenLength(s)])
  {
    var n := TokenLength(s);
    match KindAt(s)
    case LineComment =>
      assert s[n - 1] == s[2..][n - 3];
    case BlockComment =>
      assert s[n - 2] == s[2..][n - 4] && s[n - 1] == s[2..][n - 3];
    case StringLiteral =>
      assert s[n - 1] == s[1..][n - 2];
    case QuotedName =>
      assert s[n - 1] == s[1..][n - 2];
    case _ =>
  }

  /**
   * What the lexer promises about each of its tokens of `s`, for the token
   * that starts `s` in front of the tokens of the rest of the text.
   */
  lemma ConsTokens(s: string, rest: seq<Token>)
    requires s != []
    requires var r := s[TokenLength(s)..];
      && Concat(rest) == r
      && (forall i :: 0 <= i < |rest| ==> rest[i].text != [] && WellFormed(rest[i]))
      && (r != [] ==> |rest| > 0 && rest[0].text[0] == r[0])
    requires forall i :: 0 <= i < |rest| - 1 ==> Closed(rest[i])
    ensures var ts := [Token(KindAt(s), s[..TokenLength(s)])] + rest;
      && Concat(ts) == s
      && (forall i :: 0 <= i < |ts| ==> ts[i].text != [] && WellFormed(ts[i]))
      && ts[0].text[0] == s[0]
      && (forall i :: 0 <= i < |ts| - 1 ==> Closed(ts[i]))
  {
    var n := TokenLength(s);
    var t := Token(KindAt(s), s[..n]);
    FirstTokenWellFormed(s);
    if n < |s| {
      FirstTokenClosed(s);
    } else {
      assert rest == [] by { assert |Concat(rest)| == 0; }
    }
    assert s == s[..n] + s[n..];
    var ts := [t] + rest;
    assert ts[1..] == rest;
    assert forall i :: 1 <= i < |ts| ==> ts[i] == rest[i - 1];
  }

  /**
   * What the lexer promises about each pair of neighbouring tokens of `s`,
   * for the token that starts `s` in front of the tokens of the rest.
   */
  lemma ConsNeighbours(s: string, rest: seq<Token>)
    requires s != []
    requires Concat(rest) == s[TokenLength(s)..]
    requires forall i :: 0 <= i < |rest| ==> rest[i].text != []
    requires s[TokenLength(s)..] != [] ==> |rest| > 0 && rest[0].text[0] == s[TokenLength(s)]
    requires forall i :: 0 <= i < |rest| - 1 && rest[i].kind == Word ==> !IsWordChar(rest[i + 1].text[0])
    requires forall i :: 0 <= i < |rest| - 1 && rest[i].kind == Whitespace ==> !IsSpace(rest[i + 1].text[0])
    requires forall i :: 0 <= i < |rest| - 1 && rest[i].kind == Punctuation ==> !OpensComment(rest[i].text[0], rest[i + 1].text[0])
    ensures var ts := [Token(KindAt(s), s[..TokenLength(s)])] + rest;
      && (forall i :: 0 <= i < |ts| - 1 && ts[i].kind == Word ==> !IsWordChar(ts[i + 1].text[0]))
      && (forall i :: 0 <= i < |ts| - 1 && ts[i].kind == Whitespace ==> !IsSpace(ts[i + 1].text[0]))
      && (forall i :: 0 <= i < |ts| - 1 && ts[i].kind == Punctuation ==> !OpensComment(ts[i].text[0], ts[i + 1].text[0]))
  {
    var n := TokenLength(s);
    var t := Token(KindAt(s), s[..n]);
    if n < |s| {
      FirstTokenClosed(s);
      assert rest[0].text[0] == s[n] && t.text[0] == s[0];
    } else {
      assert rest == [] by { assert |Concat(rest)| == 0; }
    }
    var ts := [t] + rest;
    assert forall i :: 1 <= i < |ts| ==> ts[i] == rest[i - 1];
  }

  /**
   * The lexer: the tokens cover the text exactly, in order, each one well
   * formed, and every token but the last closed; a word or a whitespace run
   * is never followed by a token that could have extended it, and a `-` or
   * `/` punctuation token is never followed by what would make it open a
   * comment.
   */
  function Lex(s: string): (ts: seq<Token>)
    ensures Concat(ts) == s
    ensures forall i :: 0 <= i < |ts| ==> ts[i].text != [] && WellFormed(ts[i])
    ensures s != [] ==> |ts| > 0 && ts[0].text[0] == s[0]
    ensures forall i :: 0 <= i < |ts| - 1 ==> Closed(ts[i])
    ensures forall i :: 0 <= i < |ts| - 1 && ts[i].kind == Word ==> !IsWordChar(ts[i + 1].text[0])
    ensures forall i :: 0 <= i < |ts| - 1 && ts[i].kind == Whitespace ==> !IsSpace(ts[i + 1].text[0])
    ensures forall i :: 0 <= i < |ts| - 1 && ts[i].kind == Punctuation ==> !OpensComment(ts[i].text[0], ts[i + 1].text[0])
    decreases |s|
  {
    if s == [] then []
    else
      var rest := Lex(s[TokenLength(s)..]);
      ConsTokens(s, rest);
      ConsNeighbours(s, rest);
      [Token(KindAt(s), s[..TokenLength(s)])] + rest
  }

  /** Index of the first significant token, or `|ts|` when there is none. */
  function SignificantIndex(ts: seq<Token>): (k: nat)
    ensures k <= |ts|
    ensures forall j :: 0 <= j < k ==> !IsSignificant(ts[j])
    ensures k < |ts| ==> IsSignificant(ts[k])
  {
    if ts == [] then 0
    else if IsSignificant(ts[0]) then 0
    else 1 + SignificantIndex(ts[1..])
  }

  /** `token_first(skip_ws=True, skip_cm=True)`: the first token that is neither whitespace nor a comment. */
  function FirstSignificant(ts: seq<Token>): (r: Option<Token>)
    ensures r.None? <==> forall j :: 0 <= j < |ts| ==> !IsSignificant(ts[j])
    ensures r.Some? ==> r.value == ts[SignificantIndex(ts)]
  {
    var k := SignificantIndex(ts);
    if k < |ts| then Some(ts[k]) else None
  }

  /** A text is blank exactly when the lexer finds only whitespace in it. */
  lemma {:induction false} BlankIffOnlyWhitespace(s: string)
    ensures IsBlank(s) <==> forall i :: 0 <= i < |Lex(s)| ==> Lex(s)[i].kind == Whitespace
    decreases |s|
  {
    if s != [] {
      var n := TokenLength(s);
      var ts := Lex(s);
      assert ts[1..] == Lex(s[n..]);
      assert ts[0].text == s[..n];
      BlankIffOnlyWhitespace(s[n..]);
      if IsBlank(s) {
        assert KindAt(s) == Whitespace;
        assert IsBlank(s[n..]);
      }
      if forall i :: 0 <= i < |ts| ==> ts[i].kind == Whitespace {
        assert IsBlank(s[..n]);
        assert IsBlank(s[n..]);
        assert s == s[..n] + s[n..];
      }
    }
  }
}

=== FILE: str_ops.dfy ===
/**
 * The few Python `str` built-ins that the modelled code relies on, written
 * over `string` (a sequence of Unicode scalar values, as Python's `str` is a
 * sequence of code points): `isspace`, `strip`, `upper`, `split`, `replace`,
 * the `in` substring test and `str(int)`.
 */
module StrOps {

  datatype Option<T> = None | Some(value: T)

  /** Python's `str.isspace()` for one character (also what `\s` matches in `re`). */
  predicate IsSpace(c: char) {
    || c == ' '
    || ('\t' <= c <= '\r')
    || ('\U{1C}' <= c <= '\U{1F}')
    || c == '\U{85}' || c == '\U{A0}' || c == '\U{1680}'
    || ('\U{2000}' <= c <= '\U{200A}')
    || c == '\U{2028}' || c == '\U{2029}' || c == '\U{202F}' || c == '\U{205F}'
    || c == '\U{3000}'
  }

  /**
   * The character classes the modelled code skips or strips: whitespace,
   * the characters of a bare SQL word (letters, digits, `_` and `.`), and an
   * explicit list of characters, as in Python's `strip(chars)`.
   */
  datatype CharClass = Space | WordChar | Among(chars: string)

  predicate InClass(c: char, cls: CharClass) {
    match cls
    case Space => IsSpace(c)
    case WordChar => ('a' <= c <= 'z') || ('A' <= c <= 'Z') || ('0' <= c <= '9') || c == '_' || c == '.'
    case Among(chars) => c in chars
  }

  /** Empty, or made of whitespace only. */
  predicate IsBlank(s: string) {
    forall i :: 0 <= i < |s| ==> IsSpace(s[i])
  }

  /** `p` occurs in `s` starting at index `i`. */
  predicate OccursAt(p: string, s: string, i: int) {
    0 <= i && i + |p| <= |s| && s[i..i + |p|] == p
  }

  /** Python's `p in s` on two strings. */
  predicate IsSubstring(p: string, s: string) {
    exists i | 0 <= i <= |s| - |p| :: OccursAt(p, s, i)
  }

  lemma OccursInTail(p: string, s: string, i: int)
    requires |s| > 0 && OccursAt(p, s[1..], i)
    ensures OccursAt(p, s, i + 1)
  {
    assert s[i + 1..i + 1 + |p|] == s[1..][i..i + |p|];
  }

  lemma OccursInPrefix(p: string, s: string, i: int)
    requires |s| > 0 && OccursAt(p, s[..|s| - 1], i)
    ensures OccursAt(p, s, i)
  {
    assert s[i..i + |p|] == s[..|s| - 1][i..i + |p|];
  }

  // ---------------------------------------------------------------------------
  // str.upper()

  /** Upper-casing of one character; only the ASCII letters are mapped. */
  function UpperChar(c: char): char {
    if 'a' <= c <= 'z' then (c as int - 32) as char else c
  }

  /** `s.upper()`, character by character. */
  function Upper(s: string): (r: string)
    ensures |r| == |s|
    ensures forall i :: 0 <= i < |s| ==> r[i] == UpperChar(s[i])
  {
    if s == [] then [] else [UpperChar(s[0])] + Upper(s[1..])
  }

  // ---------------------------------------------------------------------------
  // str.replace(p, "")

  /**
   * `s.replace(p, "")`: every occurrence of `p`, found left to right without
   * overlap, is removed. Replacing the empty string by the empty string leaves
   * `s` as it was, as in Python.
   */
  function DeleteAll(s: string, p: string): (r: string)
    ensures |r| <= |s|
    ensures !IsSubstring(p, s) ==> r == s
    decreases |s|
  {
    if |p| == 0 || |s| < |p| then s
    else if s[..|p|] == p then
      assert OccursAt(p, s, 0);
      DeleteAll(s[|p|..], p)
    else
      var tail := DeleteAll(s[1..], p);
      assert !IsSubstring(p, s) ==> !IsSubstring(p, s[1..]) by {
        if IsSubstring(p, s[1..]) {
          var i :| OccursAt(p, s[1..], i);
          OccursInTail(p, s, i);
        }
      }
      [s[0]] + tail
  }

  // ---------------------------------------------------------------------------
  // str.strip() and str.strip(chars)

  /** Number of leading characters of `s` of class `cls`. */
  function LeadingCount(s: string, cls: CharClass): (n: nat)
    ensures n <= |s|
    ensures forall i :: 0 <= i < n ==> InClass(s[i], cls)
    ensures n < |s| ==> !InClass(s[n], cls)
  {
    if s == [] || !InClass(s[0], cls) then 0 else 1 + LeadingCount(s[1..], cls)
  }

  /**
   * Python's `strip`: removes the longest prefix and the longest suffix made of
   * characters of class `cls`. The result is empty exactly when every
   * character is dropped, and otherwise it starts and ends with a kept
   * character.
   */
  function StripWhere(s: string, cls: CharClass): (r: string)
    ensures |r| <= |s|
    ensures r == [] <==> forall i :: 0 <= i < |s| ==> InClass(s[i], cls)
    ensures r != [] ==> !InClass(r[0], cls) && !InClass(r[|r| - 1], cls)
    decreases |s|
  {
    if s != [] && InClass(s[0], cls) then StripWhere(s[1..], cls)
    else if s != [] && InClass(s[|s| - 1], cls) then StripWhere(s[..|s| - 1], cls)
    else s
  }

  /**
   * `r` sits at index `i` of `s`, and everything before and after it is of
   * class `cls`.
   */
  predicate TrimmedAt(r: string, s: string, i: int, cls: CharClass) {
    && OccursAt(r, s, i)
    && (forall j :: 0 <= j < i ==> InClass(s[j], cls))
    && (forall j :: i + |r| <= j < |s| ==> InClass(s[j], cls))
  }

  /**
   * What stripping leaves is a contiguous piece of the original, and only a
   * leading run and a trailing run of class `cls` are removed around it.
   * With StripWhere's own contract (the piece neither starts nor ends with a
   * character of the class) this pins the result down exactly.
   */
  lemma {:induction false} StripTrimsEnds(s: string, cls: CharClass)
    ensures exists i :: TrimmedAt(StripWhere(s, cls), s, i, cls)
    decreases |s|
  {
    var r := StripWhere(s, cls);
    if s != [] && InClass(s[0], cls) {
      assert r == StripWhere(s[1..], cls);
      StripTrimsEnds(s[1..], cls);
      var i :| TrimmedAt(r, s[1..], i, cls);
      TrimmedAfterHead(r, s, i, cls);
    } else if s != [] && InClass(s[|s| - 1], cls) {
      assert r == StripWhere(s[..|s| - 1], cls);
      StripTrimsEnds(s[..|s| - 1], cls);
      var i :| TrimmedAt(r, s[..|s| - 1], i, cls);
      TrimmedBeforeLast(r, s, i, cls);
    } else {
      assert r == s && TrimmedAt(r, s, 0, cls);
    }
  }

  lemma TrimmedAfterHead(r: string, s: string, i: int, cls: CharClass)
    requires s != [] && InClass(s[0], cls) && TrimmedAt(r, s[1..], i, cls)
    ensures TrimmedAt(r, s, i + 1, cls)
  {
    OccursInTail(r, s, i);
    assert forall j :: 1 <= j < |s| ==> s[j] == s[1..][j - 1];
  }

  lemma TrimmedBeforeLast(r: string, s: string, i: int, cls: CharClass)
    requires s != [] && InClass(s[|s| - 1], cls) && TrimmedAt(r, s[..|s| - 1], i, cls)
    ensures TrimmedAt(r, s, i, cls)
  {
    OccursInPrefix(r, s, i);
    assert forall j :: 0 <= j < |s| - 1 ==> s[j] == s[..|s| - 1][j];
  }

  /** Stripping never removes a character outside class `cls`. */
  lemma {:induction false} StripKeeps(s: string, cls: CharClass, c: char)
    requires c in s && !InClass(c, cls)
    ensures c in StripWhere(s, cls)
    decreases |s|
  {
    if s != [] && InClass(s[0], cls) {
      assert c in s[1..];
      StripKeeps(s[1..], cls, c);
    } else if s != [] && InClass(s[|s| - 1], cls) {
      assert s == s[..|s| - 1] + [s[|s| - 1]];
      assert c in s[..|s| - 1];
      StripKeeps(s[..|s| - 1], cls, c);
    }
  }

  /** Stripping never introduces a character. */
  lemma {:induction false} StripFrom(s: string, cls: CharClass, c: char)
    requires c in StripWhere(s, cls)
    ensures c in s
    decreases |s|
  {
    if s != [] && InClass(s[0], cls) {
      StripFrom(s[1..], cls, c);
    } else if s != [] && InClass(s[|s| - 1], cls) {
      StripFrom(s[..|s| - 1], cls, c);
    }
  }

  /** `s.strip()`: surrounding whitespace removed. */
  function Strip(s: string): (r: string)
    ensures r != [] ==> !IsSpace(r[0]) && !IsSpace(r[|r| - 1])
    ensures r == [] <==> IsBlank(s)
  {
    StripWhere(s, Space)
  }

  // ---------------------------------------------------------------------------
  // str.split(sep) for a one-character separator

  /** Index of the first `c` in `s`. */
  function IndexOf(s: string, c: char): (k: nat)
    requires c in s
    ensures k < |s| && s[k] == c && c !in s[..k]
  {
    if s[0] == c then 0 else 1 + IndexOf(s[1..], c)
  }

  /** `sep.join(parts)`. */
  function Join(parts: seq<string>, sep: char): string {
    if |parts| == 0 then ""
    else if |parts| == 1 then parts[0]
    else parts[0] + [sep] + Join(parts[1..], sep)
  }

  /** A character of a piece is a character of the joined string. */
  lemma {:induction false} JoinContains(parts: seq<string>, sep: char, k: nat, c: char)
    requires k < |parts| && c in parts[k]
    ensures c in Join(parts, sep)
    decreases |parts|
  {
    if k > 0 {
      JoinContains(parts[1..], sep, k - 1, c);
      assert c in parts[0] + [sep] + Join(parts[1..], sep);
    } else if |parts| > 1 {
      assert c in parts[0] + [sep] + Join(parts[1..], sep);
    }
  }

  /**
   * `s.split(sep)`: the pieces between separators, never none; joining them
   * back gives `s`, and a string without `sep` is a single piece.
   */
  function Split(s: string, sep: char): (parts: seq<string>)
    ensures |parts| >= 1
    ensures forall i :: 0 <= i < |parts| ==> sep !in parts[i]
    ensures Join(parts, sep) == s
    ensures |parts| == 1 <==> sep !in s
    decreases |s|
  {
    if sep !in s then [s]
    else
      var k := IndexOf(s, sep);
      var rest := Split(s[k + 1..], sep);
      assert ([s[..k]] + rest)[1..] == rest;
      assert s == s[..k] + [sep] + s[k + 1..];
      [s[..k]] + rest
  }

  /** Splitting around one separator splits each side on its own. */
  lemma {:induction false} SplitAround(x: string, y: string, sep: char)
    ensures Split(x + [sep] + y, sep) == Split(x, sep) + Split(y, sep)
    decreases |x|
  {
    if sep in x {
      var j := IndexOf(x, sep);
      var tail := x[j + 1..];
      SplitAround(tail, y, sep);
      SplitAtFirstIn(x, y, sep, j);
      SplitAtFirstOf(x, sep, j);
    } else {
      SplitAtJoint(x, y, sep);
    }
  }

  /** `Split` at the first separator of `x`, at index `j`. */
  lemma SplitAtFirstOf(x: string, sep: char, j: nat)
    requires j < |x| && x[j] == sep && sep !in x[..j]
    ensures Split(x, sep) == [x[..j]] + Split(x[j + 1..], sep)
  {
    IndexOfFirst(x, sep, j);
    SplitUnfold(x, sep);
  }

  /** `Split` at the first separator of `x + [sep] + y`, inside `x` at index `j`. */
  lemma SplitAtFirstIn(x: string, y: string, sep: char, j: nat)
    requires j < |x| && x[j] == sep && sep !in x[..j]
    ensures Split(x + [sep] + y, sep) == [x[..j]] + Split(x[j + 1..] + [sep] + y, sep)
  {
    var s := x + [sep] + y;
    assert s[..j] == x[..j] && s[j] == sep;
    assert s[j + 1..] == x[j + 1..] + [sep] + y;
    SplitAtFirstOf(s, sep, j);
  }

  /** `Split` of `x + [sep] + y` when `x` holds no separator. */
  lemma SplitAtJoint(x: string, y: string, sep: char)
    requires sep !in x
    ensures Split(x + [sep] + y, sep) == [x] + Split(y, sep)
  {
    var s := x + [sep] + y;
    var j := |x|;
    assert s[..j] == x;
    assert s[j] == sep;
    assert s[j + 1..] == y;
    SplitAtFirstOf(s, sep, j);
  }

  lemma SplitUnfold(s: string, sep: char)
    requires sep in s
    ensures Split(s, sep) == [s[..IndexOf(s, sep)]] + Split(s[IndexOf(s, sep) + 1..], sep)
  {
  }

  /** The first occurrence is the one before which `c` does not occur. */
  lemma {:induction false} IndexOfFirst(s: string, c: char, j: nat)
    requires j < |s| && s[j] == c && c !in s[..j]
    ensures IndexOf(s, c) == j
    decreases j
  {
    if j > 0 {
      assert s[0] in s[..j];
      assert s[1..][..j - 1] == s[..j][1..];
      IndexOfFirst(s[1..], c, j - 1);
    }
  }

  // ---------------------------------------------------------------------------
  // str(n) for an integer

  predicate IsDigit(c: char) {
    '0' <= c <= '9'
  }

  function DigitChar(d: nat): (c: char)
    requires d < 10
    ensures IsDigit(c) && DigitValue(c) == d
  {
    ('0' as int + d) as char
  }

  function DigitValue(c: char): nat
    requires IsDigit(c)
  {
    c as int - '0' as int
  }

  /** The number a string of decimal digits denotes. */
  function DecimalValue(s: string): nat
    requires forall i :: 0 <= i < |s| ==> IsDigit(s[i])
  {
    if s == [] then 0 else 10 * DecimalValue(s[..|s| - 1]) + DigitValue(s[|s| - 1])
  }

  /** `str(n)` for `n >= 0`: decimal digits without leading zeros, denoting `n`. */
  function NatToString(n: nat): (r: string)
    ensures |r| >= 1 && forall i :: 0 <= i < |r| ==> IsDigit(r[i])
    ensures DecimalValue(r) == n
    ensures r[0] == '0' ==> n == 0 && |r| == 1
  {
    if n < 10 then [DigitChar(n)]
    else
      var prefix := NatToString(n / 10);
      var r := prefix + [DigitChar(n % 10)];
      assert r[..|r| - 1] == prefix;
      r
  }

  /** `str(n)`: a minus sign before the digits of a negative number. */
  function IntToString(n: int): (r: string)
    ensures |r| >= 1
    ensures n < 0 <==> r[0] == '-'
    ensures n >= 0 ==> r == NatToString(n)
    ensures n < 0 ==> r == "-" + NatToString(-n)
  {
    if n < 0 then "-" + NatToString(-n) else NatToString(n)
  }
}
